=== FILE: README.md ===
# bryancalc layout calculator and measurement helpers, in Dafny

bryancalc is a carpentry and layout calculator. A run is a total distance
filled with pieces of one size and spaces between them. The run may start
and end with a piece (P-E-P-E-P), with a space (E-P-E-P-E), or with one of
each (P-E-P-E). The calculator answers two questions. How many pieces of a
given size fit at a given spacing (`calculateNumberOfPieces`, optionally
adding one trimmed last piece)? And which spacing spreads a given number of
pieces over the distance (`calculateSpacingSize`)? The measurement helpers
convert between feet and inches, round, show inches in sixteenths, and
format lengths such as `10' 6.00"` or `10' 6 1/2"`. They also read free
text such as `10' 6"`, `10ft 6in` or `6` back into inches
(`parseMeasurement`).

The model has these modules:

- `Calculator` models `lib/calculator-logic.ts`. Lengths are reals and
  counts are integers.
- `Measurement` models `lib/measurement-utils.ts` except the parser.
- `MeasurementParser` models `parseMeasurement`. It is built on `Text`
  (`trim`, `toLowerCase`, global replacement of a word, leftmost regular
  expression match) and on `Numerals` (the digit strings that `toString`
  and `toFixed` write and `parseFloat` reads).
- `CalculatorProperties`, `ParserProperties`, `ParserExamples` and
  `MeasurementExamples` hold the properties that relate several operations.
  The main ones:
  - The two calculators agree. A count of pieces survives both ways, from
    count to spacing and back, and from spacing to count and back. The
    spacing comes back only when the fit is exact: unchanged when nothing
    was left over, less than 0.01 larger otherwise. In general the
    leftover is spread over the spaces.
  - The piece count is the largest that fits.
  - Reading back what `formatMeasurement` writes gives the length rounded to
    hundredths.
  - The worked examples in the source's comments hold, with one exception.
    `formatMeasurement` is documented as writing `10' 6"`, but it always
    writes the inches with two decimals, `10' 6.00"`. The model follows
    the code.

## Model

| member | source | states |
|---|---|---|
| Calculator.CalculateNumberOfPieces | lib/calculator-logic.ts:45-160 | Rejected inputs give the empty layout with the whole distance left over. Otherwise both counts are non-negative and `isExact` holds exactly when the remainder is below 0.01 in absolute value. A trimmed last piece is reported exactly when the extension is on, something above the tolerance is left and at least one piece was placed. In that case the result is the uncut layout extended by the trimmed piece: the piece is non-negative, the count is one more, the spaces follow the pattern, the pieces total grows by the piece, the spaces total is carried over, and the remainder is the old one less a spacing (negative when the spacing did not fit), or 0 when it fitted. Without it the result is the uncut layout |
| Calculator.UncutLayout | lib/calculator-logic.ts:82-122 | Counts are non-negative. With at least one piece, the spaces follow the pattern (n-1, n+1 or n). With no piece there is one space exactly when the run has spaces at both ends and the distance holds a spacing, otherwise none. The two totals are count times size. Pieces, spaces and remainder add up to the distance, and the remainder is never negative |
| Calculator.CutLastPiece | lib/calculator-logic.ts:124-149 | One more piece and the pattern's spaces for it. The last piece is max(0, remainder - spacing), added to the pieces total. The spaces total is unchanged. The new remainder is 0 when a spacing still fitted, otherwise remainder - spacing. Counting the spaces by number, the pieces, the spaces and the new remainder make up the distance |
| Calculator.NoPieceSpaces | lib/calculator-logic.ts:99-115 | When the floor formula places no piece, the clamped space count is 1 exactly when the run has spaces at both ends and the distance holds one spacing, and 0 otherwise |
| Calculator.FitsIffAtMostRaw | lib/calculator-logic.ts:85-111 | The floor formula of each pattern counts exactly the runs that fit: m pieces with their spaces fit in the distance if and only if m is at most the formula's count |
| Calculator.RawPieceCountRange | lib/calculator-logic.ts:85-115 | For accepted inputs the unclamped count is at least -1. It is negative only for the space-to-space pattern and at least 1 for the piece-to-piece pattern, and when non-negative it fits |
| Calculator.PieceCountIsLargest | lib/calculator-logic.ts:82-115 | The reported count fits, and no larger count fits |
| Calculator.AlternatingCounts | lib/calculator-logic.ts:85-111 | In any alternating run of pieces and spaces, spaces minus pieces equals the number of ends that are spaces, minus one |
| Calculator.SpacesForCountsRun | lib/calculator-logic.ts:85-111 | Every alternating run whose ends match the two flags has exactly the number of spaces the source assigns to its number of pieces |
| Calculator.CalculateSpacingSize | lib/calculator-logic.ts:165-261 | The result is valid exactly when there is no error message, which is exactly when all inputs are positive and the pieces fit. It returns "Invalid input values" exactly for non-positive inputs and "Pieces are too large…" exactly for pieces longer than the distance. The two other messages are never returned. A valid result with spaces has the pattern's space count and a non-negative spacing, and the spacing times the spaces plus the pieces make up the distance. A valid result without spaces is the single piece from end to end. The space count is never negative, and a valid one is the pattern's count for the pieces (0 for one piece laid end to end). With a non-positive input the pieces total is 0 |
| Calculator.WrittenAccountsByCount | lib/calculator-logic.ts:117-147 | For every accepted input, the reported pieces total, the number of spaces times the spacing, and the remainder make up the distance, with or without a trimmed piece |
| CalculatorProperties.UncutLayoutAccounts | lib/calculator-logic.ts:113-122 | Without a trimmed piece the reported pieces and spaces fit in the distance and, with the remainder, make it up |
| CalculatorProperties.TrimmedPieceIsShort | lib/calculator-logic.ts:124-143 | The trimmed last piece is at least 0 and strictly shorter than a full piece |
| CalculatorProperties.TrimmedPieceFillsRun | lib/calculator-logic.ts:138-148 | When a spacing still fits after the counted pieces, the trimmed piece closes the run: nothing is left, the fit is exact, and pieces plus the new spaces make up the distance |
| CalculatorProperties.ExactCount | lib/calculator-logic.ts:85-111 | A count whose run takes the distance exactly is the count the floor formula gives |
| CalculatorProperties.ExactLayoutCounted | lib/calculator-logic.ts:82-122 | A run that takes the distance exactly is reported with that count, the pattern's spaces, no remainder and an exact fit |
| CalculatorProperties.SpacingLayout | lib/calculator-logic.ts:202-259 | A valid spacing with at least one space has a positive count, the pattern's spaces, a non-negative spacing and pieces no longer than the distance, and the run adds up to the distance |
| CalculatorProperties.SpacingThenPieces | lib/calculator-logic.ts:238-259 | Feeding a valid spacing back to the piece count (extension off) gives the same pieces and spaces, with no remainder and an exact fit |
| CalculatorProperties.PiecesThenSpacing | lib/calculator-logic.ts:117-122 | Feeding an uncut count with spaces to the spacing calculation is valid, keeps the spaces, and spreads the remainder evenly. The new spacing is the old one plus remainder over spaces, never smaller, and less than 0.01 larger when the fit was exact |
| CalculatorProperties.UncutThenSpacing | lib/calculator-logic.ts:238-240 | The same even spreading for any run that accounts for the distance the way an uncut one does |
| CalculatorProperties.Respread | lib/calculator-logic.ts:238-240 | A run of pieces at spacing g with r left over gets the spacing g + r / spaces |
| CalculatorProperties.CutKeepsStaleSpacesTotal | lib/calculator-logic.ts:139-147 | On 100 inches, 6-inch pieces, 4-inch spacing, pieces at both ends, extension on: 11 pieces and 10 spaces with a last piece of 0, but a spaces total of 36 (9 spaces). The three reported lengths add up to 96, not 100 |
| CalculatorProperties.CutOverrunsDistance | lib/calculator-logic.ts:125-148 | On 99 inches with the same run: an eleventh piece of length 0 is added although no spacing fits, and the remainder is -1 |
| CalculatorProperties.CalculateNumberOfPiecesCounted | lib/calculator-logic.ts:118-147 | The spaces total is the number of spaces times the spacing, and the result differs from the written one only in the spaces total |
| CalculatorProperties.CountedAccounts | lib/calculator-logic.ts:118-147 | With the spaces total recomputed, the three reported lengths add up to the distance for every input, rejected ones included |
| CalculatorProperties.CalculateNumberOfPiecesFixed | lib/calculator-logic.ts:124-149 | With the extension corrected, the three lengths always add up to the distance and the remainder is never negative. A trimmed piece is added exactly when the written condition holds and a spacing still fits. It is then at least 0 and shorter than a full piece, leaves nothing over, the fit is exact, and the spaces total is recomputed |
| CalculatorProperties.FixedAgreesWhereSpacingFits | lib/calculator-logic.ts:124-149 | Where a spacing still fits after the counted pieces, the corrected and the written calculation agree on everything but the spaces total |
| CalculatorProperties.FixedOfHundredInches | lib/calculator-logic.ts:124-149 | Corrected, 100 inches of 6-inch pieces at 4-inch spacing with the extension gives 11 pieces, the last of length 0, 10 spaces totalling 40, no remainder and an exact fit |
| CalculatorProperties.FixedOfNinetyNineInches | lib/calculator-logic.ts:124-149 | Corrected, the same run on 99 inches adds no piece: 10 pieces, 9 spaces and 3 inches left over |
| Measurement.FeetToInches | lib/measurement-utils.ts:11-13 | The inches divided by twelve are the feet |
| Measurement.InchesToFeet | lib/measurement-utils.ts:18-20 | The feet times twelve are the inches |
| Measurement.ConversionRoundTrip | lib/measurement-utils.ts:11-20 | Feet to inches and inches to feet are inverse to each other |
| Measurement.FeetAndInchesToInches | lib/measurement-utils.ts:37-39 | Converting the combined count less the inches back to feet gives the feet |
| Measurement.InchesToFeetAndInches | lib/measurement-utils.ts:25-32 | For a non-negative count the feet are a non-negative whole number and the inches lie in [0, 12). Recombining them gives the count |
| Measurement.SplitIsUnique | lib/measurement-utils.ts:25-32 | Any whole feet and inches in [0, 12) that recombine to the count are the split |
| Measurement.Round | lib/measurement-utils.ts:118 | `Math.round`: the result lies in (x - 1/2, x + 1/2], so it is the nearest integer and the larger one on a tie |
| Measurement.RoundToScale | lib/measurement-utils.ts:116-119 | The result times the multiplier is the rounded scaled value |
| Measurement.RoundToScaleIsNearest | lib/measurement-utils.ts:116-119 | The result is a whole multiple of one over the multiplier, within half a unit of the input |
| Measurement.RoundToScaleIdempotent | lib/measurement-utils.ts:116-119 | Rounding a rounded value again changes nothing |
| Measurement.RoundToDecimals | lib/measurement-utils.ts:116-119 | The result is a whole multiple of 10^-decimals, within half such a unit of the value, larger on a tie |
| Measurement.RoundToDecimalsProperties | lib/measurement-utils.ts:116-119 | `roundToDecimals` gives a multiple of 10^-decimals within half a unit of the input, and is idempotent |
| Measurement.IsValidMeasurement | lib/measurement-utils.ts:109-111 | Valid exactly for finite numbers above zero, so never for NaN or an infinity |
| Measurement.Gcd | lib/measurement-utils.ts:174-176 | The result divides both arguments and every common divisor divides it. It is 0 only when both arguments are |
| Measurement.SimplifyFraction | lib/measurement-utils.ts:160-169 | The reduced fraction has the same value (cross products agree), a positive denominator, and no common divisor but 1 |
| Measurement.SixteenthsReduced | lib/measurement-utils.ts:147-148 | k/16 for 0 < k < 16 reduces to an odd numerator over 2, 4, 8 or 16, a proper fraction of the same value |
| Measurement.NearestSixteenths | lib/measurement-utils.ts:125-155 | The value shown is a whole number of sixteenths. Below the 0.001 tolerance it is the whole part. Otherwise it is within half a sixteenth of the input. A fraction is shown exactly when the value is not whole, and then as the whole part plus an odd numerator over 2, 4, 8 or 16 |
| Measurement.Sixteenths | lib/measurement-utils.ts:135-148 | A whole part and k sixteenths are shown with value whole + k/16, as a whole number at 0 and at 16 (the carry), otherwise as a reduced proper fraction |
| Measurement.RenderFraction | lib/measurement-utils.ts:131-154 | The text of a whole number or of a fraction holds no unit marks, and has a slash exactly when it is a fraction |
| Measurement.ToFixed2 | lib/measurement-utils.ts:48 | `toFixed(2)` of a non-negative number writes digits, a point and exactly two digits, and no unit marks. Its value is stated by ParserProperties.ToFixed2Value |
| Measurement.DecimalToFraction | lib/measurement-utils.ts:125-155 | `decimalToFraction` writes no unit marks and writes a slash exactly when the nearest sixteenth is not a whole number |
| Measurement.SplitRemainder | lib/measurement-utils.ts:45-51 | The split has feet exactly from 12 inches on, and no inches exactly on a whole number of feet |
| Measurement.FormatMeasurement | lib/measurement-utils.ts:44-56 | The text is non-empty and has a feet mark exactly from one foot on. It ends in the feet mark exactly on a whole number of feet, otherwise in the inch mark |
| Measurement.FormatMeasurementWithFractions | lib/measurement-utils.ts:181-194 | The same three facts for the display in sixteenths |
| Measurement.SixteenthShownExactly | lib/measurement-utils.ts:125-155 | A value that is a whole number of sixteenths is shown as exactly that value |
| Measurement.ShownLength | lib/measurement-utils.ts:125-155 | The length the fractional display stands for is non-negative and a whole number of sixteenths, within half a sixteenth of the input once past the tolerance |
| Measurement.FormatMeasurementWithFractionsFixed | lib/measurement-utils.ts:181-194 | The corrected display (see Findings): a feet mark exactly when the rounded length is at least a foot, ending in it exactly on a whole number of feet |
| Measurement.FixedShowsInchesBelowAFoot | lib/measurement-utils.ts:181-194 | In the corrected display the inches written are exactly the inches left after the whole feet, so always below 12 |
| MeasurementExamples.NearestOfFourAndASixteenth | lib/measurement-utils.ts:133-154 | 4.0625 is four and one sixteenth |
| MeasurementExamples.FractionOfFourAndASixteenth | lib/measurement-utils.ts:122-123 | 4.0625 is shown as `4 1/16`, the documented example |
| MeasurementExamples.FractionOfWholeNumber | lib/measurement-utils.ts:129-132 | 4.0 is shown as `4` |
| MeasurementExamples.FractionJustBelowWhole | lib/measurement-utils.ts:137-140 | 0.999999 rounds to 16 sixteenths and is shown as `1` |
| MeasurementExamples.FractionsFormatOfTenFeetSixAndAHalf | lib/measurement-utils.ts:178-194 | 126.5 inches is shown as `10' 6 1/2"`, the documented example |
| MeasurementExamples.FormatOfTenFeetSix | lib/measurement-utils.ts:41-56 | 126 inches is shown as `10' 6.00"` |
| MeasurementExamples.NearestOfElevenPointNineNine | lib/measurement-utils.ts:133-140 | 11.99 rounds to 16 sixteenths and is shown as 12 whole inches |
| MeasurementExamples.FractionsShowTwelveInches | lib/measurement-utils.ts:181-194 | As written, 131.99 inches is shown as `10' 12"`: the leftover 11.99 inches round to a whole foot after the split |
| MeasurementExamples.FixedShowsElevenFeet | lib/measurement-utils.ts:181-194 | Rounded before the split, 131.99 inches is shown as `11'` |
| Numerals.NatToString | lib/measurement-utils.ts:131 | `toString` of a natural number is a canonical numeral (digits, no leading zero), one digit long exactly below ten |
| Numerals.IntToString | lib/measurement-utils.ts:52 | `toString` of an integer is a canonical numeral, with a minus sign in front exactly for negatives |
| Numerals.TwoDigits | lib/measurement-utils.ts:48 | The decimals of `toFixed(2)` are two digits worth the number below 100 |
| Numerals.NatToStringRoundTrip | lib/measurement-utils.ts:52 | Reading a rendered natural number gives it back |
| Numerals.CanonicalRoundTrip | lib/measurement-utils.ts:131 | Rendering the value of a canonical numeral gives the numeral back |
| Numerals.NatToStringInjective | lib/measurement-utils.ts:131 | Distinct naturals render differently |
| Numerals.IntToStringInjective | lib/measurement-utils.ts:52 | Distinct integers render differently |
| Text.TrimStart | lib/measurement-utils.ts:68 | The result is a suffix of the input and everything removed before it is whitespace. It is empty exactly for all-whitespace input and otherwise starts with a non-whitespace character |
| Text.TrimEnd | lib/measurement-utils.ts:68 | The result is a prefix of the input and everything removed after it is whitespace. It is empty exactly for all-whitespace input and otherwise ends with a non-whitespace character |
| Text.Trim | lib/measurement-utils.ts:63 | `trim` returns a slice of the input with only whitespace before and after it. It is empty exactly for all-whitespace input. A non-empty result starts and ends with non-whitespace, and input already in that shape is unchanged |
| Text.ToLower | lib/measurement-utils.ts:68 | Same length, no upper-case letter left, other characters unchanged, upper-case letters moved down by 32 |
| Text.ReplaceAll | lib/measurement-utils.ts:71-77 | Text whose characters never start the word is unchanged. Every character of the result comes from the text or the replacement. With a non-empty replacement the result is empty exactly when the text is |
| Text.ReplaceAllAtWord | lib/measurement-utils.ts:71-77 | The first occurrence of the word is rewritten to the replacement: the text before it is copied unchanged, and the rest after the word is rewritten on its own. So every occurrence found left to right, without overlap, becomes the replacement |
| Text.ReplaceAllStepWord | lib/measurement-utils.ts:71-77 | An occurrence at the start becomes the replacement, and the search resumes right after the word |
| Text.ReplaceAllStepChar | lib/measurement-utils.ts:71-77 | Without an occurrence at the start, the first character is kept and the search moves on by one |
| Text.ReplaceAllCopiesPrefix | lib/measurement-utils.ts:71-77 | A prefix of the result that holds no character of the replacement is copied from the text unchanged |
| Text.ReplaceAllRemovesWord | lib/measurement-utils.ts:71-77 | When the replacement shares no character with the word, the word occurs nowhere in the result |
| Text.ReplaceAllNoOccurrence | lib/measurement-utils.ts:71-77 | Text in which the word occurs nowhere is unchanged |
| Text.ReplaceAllAfterPrefix | lib/measurement-utils.ts:71-77 | A prefix in which the word cannot start is copied unchanged and the rest is rewritten on its own |
| Text.FirstMatch | lib/measurement-utils.ts:82 | The reported position matches and no earlier position does; no position matches when none is reported |
| MeasurementParser.DigitRun | lib/measurement-utils.ts:82 | The run of `\d+` at the start: all digits and followed by a non-digit |
| MeasurementParser.WhitespaceRun | lib/measurement-utils.ts:82 | The run of `\s*` at the start: all whitespace and followed by non-whitespace |
| MeasurementParser.NumberEnd | lib/measurement-utils.ts:82 | `\d+\.?\d*` matches at the start exactly when the text starts with a digit, and the match is followed by a non-digit. A point right after the match only occurs when the match already took the one point after the leading digits |
| MeasurementParser.NumberEndChars | lib/measurement-utils.ts:82 | Every character of the match is a digit, except a point directly after the leading digit run |
| MeasurementParser.NumberEndIsLongest | lib/measurement-utils.ts:82 | The match is a number text (a digit first, then digits and at most one point), and no longer prefix is one: the greedy end is the longest match |
| MeasurementParser.NumberTextEnd | lib/measurement-utils.ts:82 | A number text followed by neither a digit nor a point ends exactly where the greedy match ends |
| MeasurementParser.WhitespaceRunEnd | lib/measurement-utils.ts:82 | A whitespace prefix that stops at non-whitespace is the whole `\s*` run |
| MeasurementParser.MarkedNumberAt | lib/measurement-utils.ts:82-84 | A match of `(\d+\.?\d*)\s*mark` at the start of the text begins with a digit |
| MeasurementParser.MarkedNumberAtSound | lib/measurement-utils.ts:82 | Whatever the greedy reading matches is a match of the regular expression: a number text, whitespace, then the mark |
| MeasurementParser.MarkedNumberAtComplete | lib/measurement-utils.ts:82 | Every match of the regular expression is found by the greedy reading, for a mark that is not a digit, a point or whitespace |
| MeasurementParser.MarkedNumberAtMatches | lib/measurement-utils.ts:82 | For such a mark, as both of the source's marks are, the greedy reading matches exactly when the regular expression does |
| MeasurementParser.FindMarkedNumber | lib/measurement-utils.ts:82-83 | `match` finds nothing exactly when the pattern matches at no position |
| MeasurementParser.FindMarkedNumberIsLeftmost | lib/measurement-utils.ts:82-84 | A value found is the one at a position where the pattern matches and no earlier position matches |
| MeasurementParser.Normalize | lib/measurement-utils.ts:71-77 | The six replacements leave an empty text exactly for an empty one, and no `in` is left in the result |
| MeasurementParser.Clean | lib/measurement-utils.ts:63-77 | The cleaned text is empty exactly for blank input, and contains no `in` |
| MeasurementParser.ParseUnsigned | lib/measurement-utils.ts:97 | `parseFloat` of an unsigned text reads nothing exactly when the text starts with neither a digit nor a point then a digit. A value read is never negative |
| MeasurementParser.ParseFloat | lib/measurement-utils.ts:97-99 | After an optional sign, `parseFloat` reads nothing (NaN) exactly when no digit, or point then digit, follows. A value read after a minus is never positive, and without one never negative |
| MeasurementParser.ParseMeasurement | lib/measurement-utils.ts:62-66 | Empty and whitespace-only input reads as 0 |
| ParserProperties.NoUpperUnchanged | lib/measurement-utils.ts:68 | Text without upper-case letters is unchanged by lower-casing |
| ParserProperties.NormalizeUnchanged | lib/measurement-utils.ts:71-77 | Text without `f` and `i` is unchanged by the six word replacements |
| ParserProperties.CleanPlain | lib/measurement-utils.ts:63-77 | Digits, points, spaces and marks, starting with a digit and not ending in a space, are not blank and are cleaned to themselves |
| ParserProperties.MarkedIntegerAt | lib/measurement-utils.ts:82 | An integer directly followed by the mark matches, with the integer's value |
| ParserProperties.MarkedDecimalAt | lib/measurement-utils.ts:82 | A decimal directly followed by the mark matches, with its whole and fraction value |
| ParserProperties.DecimalText | lib/measurement-utils.ts:89 | Digits, a point, digits and a mark form plain text whose only mark is the last character, and it matches with the decimal's value |
| ParserProperties.UnmarkedIntegerAt | lib/measurement-utils.ts:89 | Inside an integer followed by a character that is not a digit, point, whitespace or the mark, the pattern matches at no position |
| ParserProperties.NoMarkNoMatch | lib/measurement-utils.ts:82 | Text without the mark matches at no position |
| ParserProperties.FindAt | lib/measurement-utils.ts:82-86 | When position i matches with value v and no earlier one does, the search gives v |
| ParserProperties.FindNone | lib/measurement-utils.ts:82-83 | When no position matches, the search gives nothing |
| ParserProperties.AbsentMark | lib/measurement-utils.ts:82-83 | Text without the mark has no match for it |
| ParserProperties.ToFixed2Value | lib/measurement-utils.ts:48 | `toFixed(2)` writes a numeral, a point and two digits, whose value is the input rounded to hundredths |
| ParserProperties.ParsePlain | lib/measurement-utils.ts:62-104 | On plain text the searches and `parseFloat` run on the text as written |
| ParserProperties.ParseFloatNumeral | lib/measurement-utils.ts:97 | `parseFloat` reads a canonical numeral as its value |
| ParserProperties.ParseBareNumber | lib/measurement-utils.ts:95-101 | A bare whole number reads as that many inches |
| ParserProperties.InchesTextMatch | lib/measurement-utils.ts:89 | The text `x.xx"` is plain, has no feet mark, and matches at its start with x rounded to hundredths |
| ParserProperties.ParseInchesText | lib/measurement-utils.ts:48 | The text `x.xx"` reads back as x rounded to hundredths |
| ParserProperties.ParseFeetDigits | lib/measurement-utils.ts:82-86 | Digits followed by the feet mark read as twelve times the digits' value |
| ParserProperties.ParseFeetText | lib/measurement-utils.ts:52 | The text `f'` reads back as 12 f inches |
| ParserProperties.InchesAfterFeet | lib/measurement-utils.ts:89-93 | After `d' ` the first inch match is the one at the start of the rest |
| ParserProperties.ParseFeetThenInches | lib/measurement-utils.ts:82-93 | `d' ` followed by an inches text reads as the feet in inches plus the inches text's value |
| ParserProperties.SameCleanText | lib/measurement-utils.ts:67-77 | Two non-blank inputs that clean to the same text read the same |
| ParserProperties.ParseFeetInchesText | lib/measurement-utils.ts:55 | The text `f' x.xx"` reads back as 12 f plus x rounded to hundredths |
| ParserProperties.HundredthsUnchanged | lib/measurement-utils.ts:116-119 | A whole number of hundredths is unchanged by rounding to two decimals |
| ParserProperties.ParseFormatRoundTrip | lib/measurement-utils.ts:44-104 | Reading back what `formatMeasurement` writes gives the whole feet plus the remaining inches rounded to hundredths |
| ParserProperties.ParseFormatExact | lib/measurement-utils.ts:44-104 | A non-negative length that is a whole number of hundredths survives formatting and reading back exactly |
| ParserExamples.BlankIsZero | lib/measurement-utils.ts:63-65 | The empty and the blank input read as 0 |
| ParserExamples.WholeInchesMatch | lib/measurement-utils.ts:89 | `i"` matches with value i |
| ParserExamples.ParseFeetAndWholeInches | lib/measurement-utils.ts:60 | `f' i"` reads as 12 f + i |
| ParserExamples.CleanUnitWords | lib/measurement-utils.ts:67-77 | `dft ein` is cleaned to `d' e"` |
| ParserExamples.ParseUnitWords | lib/measurement-utils.ts:60 | `fft iin` reads as 12 f + i |
| ParserExamples.TenFeetSixInches | lib/measurement-utils.ts:60 | `10' 6"` and `10ft 6in`, two of the documented formats, both read as 126 |

## Left out

- Numbers are exact reals. IEEE-754 rounding, NaN and the infinities of the
  calculator's inputs are not modelled. The exception is `isValidMeasurement`,
  whose NaN and infinity cases are modelled by a small `Number` datatype.
- Calculator.CalculateSpacingSize: `numberOfPieces` is an integer, because
  its one caller, the spacing calculator component, passes
  `parseInt(…) || 0`. With whole counts the "Not enough
  pieces for the selected pattern" branch cannot be reached. The contract
  states it is never returned. A fractional count in the source could reach
  it.
- Calculator.CalculateSpacingSize: the "Not enough space for the pieces"
  branch cannot be reached, because the earlier check already rejects pieces
  longer than the distance. The contract states it is never returned.
- The single piece laid end to end (pieces at both ends, one piece) is valid
  with no spaces. Its pieces total is the piece, not the distance; the
  contract states what the code returns.
- Measurement.InchesToFeetAndInches, Measurement.FormatMeasurement,
  Measurement.FormatMeasurementWithFractions and Measurement.ToFixed2 require
  a non-negative length. For negative lengths JavaScript's `%` and `toFixed`
  keep the sign, and this is not modelled. The pieces calculator formats
  the remainder either through `Math.abs` or only when it exceeds 0.01, so
  it never formats a negative length.
- Measurement.Gcd and Measurement.SimplifyFraction are stated for
  non-negative arguments. `decimalToFraction` only calls them with 1..15
  and 16.
- Measurement.DecimalToFraction: the contract states the shape of the text
  (no unit marks, a slash exactly for a fraction). The value shown is stated
  by Measurement.NearestSixteenths; the digits are pinned only by the worked
  examples.
- Measurement.FormatMeasurement: the contract states where the marks go.
  The numbers written are stated by ParserProperties.ParseFormatRoundTrip,
  which reads them back.
- Measurement.FormatMeasurementWithFractions: the contract states where the
  marks go; the inches part is Measurement.DecimalToFraction's text.
- Measurement.RoundToDecimals: `decimals` has no default here, while the
  source defaults it to 2, so callers state it. It is an integer; a
  fractional `decimals`, which `Math.pow` would accept, is not modelled.
- Measurement.Round: `Math.round` rounds ties up (towards +infinity). The
  model follows that, not "half away from zero".
- Text.ToLower: lower-casing is modelled for the ASCII letters only. Other
  scripts' case mappings are left out.
- MeasurementParser.ParseMeasurement: the contract states the blank case
  and how the two marked numbers and the bare-number fallback combine, in
  the function's own terms. What the parser reads is stated by
  ParserProperties.ParseFormatRoundTrip (formatted lengths read back),
  ParserProperties.ParseBareNumber (a bare whole number),
  ParserExamples.ParseFeetAndWholeInches (`f' i"`) and
  ParserExamples.ParseUnitWords (`fft iin`).
- Calculator.CalculateNumberOfPieces: `cutLastPiece` is optional in the
  source and defaults to false (lib/calculator-logic.ts:54). Here the
  field is required; a caller that omits it is modelled by passing false.
- Measurement.RenderFraction: the contract states the shape of the text.
  The digits it writes are pinned by the worked examples in
  MeasurementExamples, not by a general clause.
- The React components, pages and diagram are left out. Nothing of them
  feeds the computation beyond the integer count noted above.

## Findings

| source | as written | input that shows it | evidently intended | confidence | as-written member | corrected member |
|---|---|---|---|---|---|---|
| lib/calculator-logic.ts:139-147 | With the extension on, the spaces total is not recomputed after a space is added for the extra piece. The reported pieces, spaces and remainder then no longer add up to the distance | 100 in, 6 in pieces, 4 in spacing, pieces at both ends, extension on: 60 + 36 + 0 = 96 | the spaces total counts the new space: 60 + 40 + 0 = 100 | not executed | CalculatorProperties.CutKeepsStaleSpacesTotal | CalculatorProperties.CalculateNumberOfPiecesCounted |
| lib/calculator-logic.ts:125-143 | The extra piece is added whenever more than 0.01 in is left, even when its spacing does not fit. It then has length 0 and the run overruns the distance | 99 in, 6 in pieces, 4 in spacing, pieces at both ends, extension on: an 11th piece of length 0 and a remainder of -1 | a piece is added only when its spacing still fits (a trimmed piece of length 0, as at 100 in, is kept): 10 pieces and 3 in left over | not executed; medium: the source clamps the piece at 0, so a zero-length piece was foreseen, but not a run longer than the distance | CalculatorProperties.CutOverrunsDistance | CalculatorProperties.CalculateNumberOfPiecesFixed |
| lib/measurement-utils.ts:181-194 | The length is split into feet and inches before the inches are rounded to sixteenths. Inches just below a foot round up to 12 and are written next to the feet that did not receive the carry | 131.99 in: `10' 12"` (and 11.99 in: `12"`) | the rounding carries into the feet: `11'` | not executed | MeasurementExamples.FractionsShowTwelveInches | Measurement.FormatMeasurementWithFractionsFixed |

=== FILE: calculator.dfy ===
/**
 * The layout calculator: how many pieces of a given size fit along a
 * distance with a given spacing, and conversely which spacing spreads a
 * given number of pieces over the distance. Lengths are inches.
 */
module Calculator {
  import opened Wrappers

  /** A remainder smaller than this, in inches, counts as an exact fit. */
  const ExactTolerance: real := 0.01

  const InvalidInputMessage: string := "Invalid input values"
  const TooLargeMessage: string := "Pieces are too large for the total distance"
  const NotEnoughPiecesMessage: string := "Not enough pieces for the selected pattern"
  const NotEnoughSpaceMessage: string := "Not enough space for the pieces"

  function Abs(x: real): real {
    if x < 0.0 then -x else x
  }

  function Max(a: real, b: real): real {
    if a >= b then a else b
  }

  /** Which ends of the run hold a piece. */
  datatype Pattern =
    | PieceToPiece  // P-E-P-E-P
    | SpaceToSpace  // E-P-E-P-E
    | Mixed         // P-E-P-E or E-P-E-P

  function PatternOf(startWithPiece: bool, endWithPiece: bool): Pattern {
    if startWithPiece && endWithPiece then PieceToPiece
    else if !startWithPiece && !endWithPiece then SpaceToSpace
    else Mixed
  }

  /** The number of spaces between and around `pieces` pieces laid out in the pattern. */
  function SpacesFor(pattern: Pattern, pieces: int): int {
    match pattern
    case PieceToPiece => pieces - 1
    case SpaceToSpace => pieces + 1
    case Mixed => pieces
  }

  // A reference reading of the pattern: the run itself, slot by slot.

  datatype Slot = Piece | Space

  predicate Alternates(run: seq<Slot>) {
    forall i :: 0 <= i < |run| - 1 ==> run[i] != run[i + 1]
  }

  function Count(run: seq<Slot>, kind: Slot): nat {
    if |run| == 0 then 0 else (if run[0] == kind then 1 else 0) + Count(run[1..], kind)
  }

  function SpaceEnd(slot: Slot): int {
    if slot == Space then 1 else 0
  }

  /** In an alternating run, spaces outnumber pieces by the number of space ends, less one. */
  lemma {:induction false} AlternatingCounts(run: seq<Slot>)
    requires |run| > 0 && Alternates(run)
    ensures Count(run, Space) - Count(run, Piece) == SpaceEnd(run[0]) + SpaceEnd(run[|run| - 1]) - 1
    decreases |run|
  {
    if |run| > 1 {
      var rest := run[1..];
      assert Alternates(rest) by {
        forall i | 0 <= i < |rest| - 1
          ensures rest[i] != rest[i + 1]
        {
          assert rest[i] == run[i + 1] && rest[i + 1] == run[i + 2];
        }
      }
      assert run[0] != rest[0];
      AlternatingCounts(rest);
    }
  }

  /**
   * Any alternating run of pieces and spaces that starts and ends as the
   * two flags say has exactly `SpacesFor` spaces for its pieces.
   */
  lemma SpacesForCountsRun(run: seq<Slot>, startWithPiece: bool, endWithPiece: bool)
    requires |run| > 0 && Alternates(run)
    requires (run[0] == Piece) == startWithPiece && (run[|run| - 1] == Piece) == endWithPiece
    ensures Count(run, Space) == SpacesFor(PatternOf(startWithPiece, endWithPiece), Count(run, Piece))
  {
    AlternatingCounts(run);
  }

  // calculateNumberOfPieces

  datatype PiecesParams = PiecesParams(
    totalDistance: real,
    pieceSize: real,
    spacingSize: real,
    startWithPiece: bool,
    endWithPiece: bool,
    cutLastPiece: bool)
  {
    function Pattern(): Pattern {
      PatternOf(startWithPiece, endWithPiece)
    }

    /** The inputs the calculation accepts; anything else gives the empty layout. */
    predicate Valid() {
      totalDistance > 0.0 && pieceSize > 0.0 && spacingSize >= 0.0 && pieceSize <= totalDistance
    }
  }

  datatype PiecesResult = PiecesResult(
    numberOfPieces: int,
    numberOfSpaces: int,
    totalPiecesLength: real,
    totalSpacesLength: real,
    remainingSpace: real,
    isExact: bool,
    lastPieceSize: Option<real>)

  /** The answer for rejected inputs: nothing placed, the whole distance left over. */
  function EmptyLayout(totalDistance: real): PiecesResult {
    PiecesResult(0, 0, 0.0, 0.0, totalDistance, false, None)
  }

  /** `m` pieces with their spaces take no more than the distance. */
  predicate Fits(pattern: Pattern, m: int, totalDistance: real, pieceSize: real, spacingSize: real) {
    m as real * pieceSize + SpacesFor(pattern, m) as real * spacingSize <= totalDistance
  }

  /** The closed-form piece count of each pattern, before clamping. */
  function RawPieceCount(pattern: Pattern, totalDistance: real, pieceSize: real, spacingSize: real): int
    requires pieceSize > 0.0 && spacingSize >= 0.0
  {
    match pattern
    case PieceToPiece => ((totalDistance + spacingSize) / (pieceSize + spacingSize)).Floor
    case SpaceToSpace => ((totalDistance - spacingSize) / (pieceSize + spacingSize)).Floor
    case Mixed => (totalDistance / (pieceSize + spacingSize)).Floor
  }

  lemma ScaleCompare(a: real, b: real, k: real)
    requires k > 0.0
    ensures a * k <= b * k <==> a <= b
  {
    if a <= b {
      assert (b - a) * k >= 0.0;
    } else {
      assert (a - b) * k > 0.0;
    }
  }

  /** Below a quotient by a positive number exactly when the product is below the dividend. */
  lemma QuotientCompare(x: real, a: real, k: real)
    requires k > 0.0
    ensures x * k <= a <==> x <= a / k
  {
    var q := a / k;
    assert q * k == a;
    ScaleCompare(x, q, k);
  }

  /** What the pattern leaves for `m` pieces and their `m` paired spaces. */
  function Budget(pattern: Pattern, totalDistance: real, spacingSize: real): real {
    match pattern
    case PieceToPiece => totalDistance + spacingSize
    case SpaceToSpace => totalDistance - spacingSize
    case Mixed => totalDistance
  }

  lemma FitsWithinBudget(pattern: Pattern, totalDistance: real, pieceSize: real, spacingSize: real, m: int)
    ensures Fits(pattern, m, totalDistance, pieceSize, spacingSize)
        <==> m as real * (pieceSize + spacingSize) <= Budget(pattern, totalDistance, spacingSize)
  {
    var x := m as real;
    assert x * (pieceSize + spacingSize) == x * pieceSize + x * spacingSize;
    match pattern
    case PieceToPiece =>
      assert (m - 1) as real * spacingSize == x * spacingSize - spacingSize;
    case SpaceToSpace =>
      assert (m + 1) as real * spacingSize == x * spacingSize + spacingSize;
    case Mixed =>
  }

  /** The floor formula counts exactly the piece counts that fit: `m` fits if and only if it is at most the count. */
  lemma FitsIffAtMostRaw(pattern: Pattern, totalDistance: real, pieceSize: real, spacingSize: real, m: int)
    requires pieceSize > 0.0 && spacingSize >= 0.0
    ensures Fits(pattern, m, totalDistance, pieceSize, spacingSize)
        <==> m <= RawPieceCount(pattern, totalDistance, pieceSize, spacingSize)
  {
    var k := pieceSize + spacingSize;
    var budget := Budget(pattern, totalDistance, spacingSize);
    var q := budget / k;
    var x := m as real;
    assert RawPieceCount(pattern, totalDistance, pieceSize, spacingSize) == q.Floor;
    assert Fits(pattern, m, totalDistance, pieceSize, spacingSize) <==> x * k <= budget by {
      FitsWithinBudget(pattern, totalDistance, pieceSize, spacingSize, m);
    }
    QuotientCompare(x, budget, k);
    assert x <= q <==> m <= q.Floor;
  }

  /** Where the unclamped count can fall for accepted inputs. */
  lemma RawPieceCountRange(q: PiecesParams)
    requires q.Valid()
    ensures var raw := RawPieceCount(q.Pattern(), q.totalDistance, q.pieceSize, q.spacingSize);
      && raw >= -1
      && (raw < 0 ==> q.Pattern() == SpaceToSpace)
      && (q.Pattern() == PieceToPiece ==> raw >= 1)
      && (raw >= 0 ==> Fits(q.Pattern(), raw, q.totalDistance, q.pieceSize, q.spacingSize))
  {
    var pattern := q.Pattern();
    var raw := RawPieceCount(pattern, q.totalDistance, q.pieceSize, q.spacingSize);
    FitsIffAtMostRaw(pattern, q.totalDistance, q.pieceSize, q.spacingSize, raw);
    FitsIffAtMostRaw(pattern, q.totalDistance, q.pieceSize, q.spacingSize, -1);
    FitsIffAtMostRaw(pattern, q.totalDistance, q.pieceSize, q.spacingSize, 0);
    FitsIffAtMostRaw(pattern, q.totalDistance, q.pieceSize, q.spacingSize, 1);
  }

  /** A quotient by a positive number has a non-negative floor exactly when the dividend is non-negative. */
  lemma QuotientFloorSign(a: real, k: real)
    requires k > 0.0
    ensures (a / k).Floor >= 0 <==> a >= 0.0
  {
    var x := a / k;
    assert x * k == a;
    if x < 0.0 {
      assert x * k < 0.0;
    } else {
      assert x * k >= 0.0;
    }
  }

  /**
   * With no piece placed, the clamped space count is 1 exactly when the run
   * has spaces at both ends and the distance holds one spacing.
   */
  lemma NoPieceSpaces(q: PiecesParams, raw: int)
    requires q.Valid()
    requires raw == RawPieceCount(q.Pattern(), q.totalDistance, q.pieceSize, q.spacingSize)
    ensures raw <= 0 ==>
      (if SpacesFor(q.Pattern(), raw) >= 0 then SpacesFor(q.Pattern(), raw) else 0)
      == (if q.Pattern() == SpaceToSpace && q.spacingSize <= q.totalDistance then 1 else 0)
  {
    RawPieceCountRange(q);
    if raw <= 0 && q.Pattern() == SpaceToSpace {
      QuotientFloorSign(q.totalDistance - q.spacingSize, q.pieceSize + q.spacingSize);
    }
  }

  /** The clamped counts of the floor formulas fit in the distance. */
  lemma ClampedFits(q: PiecesParams, raw: int)
    requires q.Valid()
    requires raw == RawPieceCount(q.Pattern(), q.totalDistance, q.pieceSize, q.spacingSize)
    ensures (if raw >= 0 then raw else 0) as real * q.pieceSize
      + (if SpacesFor(q.Pattern(), raw) >= 0 then SpacesFor(q.Pattern(), raw) else 0) as real * q.spacingSize
      <= q.totalDistance
  {
    RawPieceCountRange(q);
  }

  /**
   * The layout the floor formulas give, before any cutting: both counts
   * clamped to zero, the space count taken from the unclamped piece count.
   */
  function UncutLayout(q: PiecesParams): (r: PiecesResult)
    requires q.Valid()
    ensures r.numberOfPieces >= 0 && r.numberOfSpaces >= 0 && r.lastPieceSize.None?
    ensures r.numberOfPieces > 0 ==> r.numberOfSpaces == SpacesFor(q.Pattern(), r.numberOfPieces)
    ensures r.numberOfPieces == 0 ==>
      r.numberOfSpaces == (if q.Pattern() == SpaceToSpace && q.spacingSize <= q.totalDistance then 1 else 0)
    ensures r.totalPiecesLength == r.numberOfPieces as real * q.pieceSize
    ensures r.totalSpacesLength == r.numberOfSpaces as real * q.spacingSize
    ensures r.totalPiecesLength + r.totalSpacesLength + r.remainingSpace == q.totalDistance
    ensures r.remainingSpace >= 0.0
    ensures r.isExact <==> Abs(r.remainingSpace) < ExactTolerance
  {
    var pattern := q.Pattern();
    var raw := RawPieceCount(pattern, q.totalDistance, q.pieceSize, q.spacingSize);
    var pieces := if raw >= 0 then raw else 0;
    var spaces := if SpacesFor(pattern, raw) >= 0 then SpacesFor(pattern, raw) else 0;
    var totalPiecesLength := pieces as real * q.pieceSize;
    var totalSpacesLength := spaces as real * q.spacingSize;
    var remainingSpace := q.totalDistance - (totalPiecesLength + totalSpacesLength);
    ClampedFits(q, raw);
    NoPieceSpaces(q, raw);
    PiecesResult(pieces, spaces, totalPiecesLength, totalSpacesLength, remainingSpace,
      Abs(remainingSpace) < ExactTolerance, None)
  }

  /** Pieces, spaces counted by number, and the remainder make up the distance. */
  predicate AccountsByCount(q: PiecesParams, r: PiecesResult) {
    r.totalPiecesLength + r.numberOfSpaces as real * q.spacingSize + r.remainingSpace == q.totalDistance
  }

  /** The extension applies when something is left over and at least one piece was placed. */
  predicate CutApplies(q: PiecesParams, base: PiecesResult) {
    q.cutLastPiece && base.remainingSpace > ExactTolerance && base.numberOfPieces > 0
  }

  /**
   * One more piece, trimmed to what is left after its spacing. The spaces
   * total is carried over from `base` unchanged.
   */
  function CutLastPiece(q: PiecesParams, base: PiecesResult): (r: PiecesResult)
    requires q.Valid() && base == UncutLayout(q) && base.numberOfPieces > 0
    ensures r.numberOfPieces == base.numberOfPieces + 1
    ensures r.numberOfSpaces == SpacesFor(q.Pattern(), r.numberOfPieces) == base.numberOfSpaces + 1
    ensures r.lastPieceSize == Some(Max(0.0, base.remainingSpace - q.spacingSize))
    ensures r.totalPiecesLength == base.totalPiecesLength + r.lastPieceSize.value
    ensures r.totalSpacesLength == base.totalSpacesLength
    ensures r.remainingSpace == (if base.remainingSpace >= q.spacingSize then 0.0 else base.remainingSpace - q.spacingSize)
    ensures AccountsByCount(q, r)
    ensures r.isExact <==> Abs(r.remainingSpace) < ExactTolerance
  {
    var pieces := base.numberOfPieces + 1;
    var spaces := SpacesFor(q.Pattern(), pieces);
    var spaceForLastPiece := q.totalDistance - (pieces - 1) as real * q.pieceSize - spaces as real * q.spacingSize;
    assert spaces == base.numberOfSpaces + 1;
    assert spaces as real * q.spacingSize == base.totalSpacesLength + q.spacingSize;
    assert spaceForLastPiece == base.remainingSpace - q.spacingSize;
    var lastPieceSize := Max(0.0, spaceForLastPiece);
    var totalPiecesLength := (pieces - 1) as real * q.pieceSize + lastPieceSize;
    var usedSpace := totalPiecesLength + spaces as real * q.spacingSize;
    var remainingSpace := q.totalDistance - usedSpace;
    PiecesResult(pieces, spaces, totalPiecesLength, base.totalSpacesLength, remainingSpace,
      Abs(remainingSpace) < ExactTolerance, Some(lastPieceSize))
  }

  /** `calculateNumberOfPieces`, as written. */
  function CalculateNumberOfPieces(q: PiecesParams): (r: PiecesResult)
    ensures !q.Valid() ==> r == EmptyLayout(q.totalDistance)
    ensures q.Valid() ==> r.numberOfPieces >= 0 && r.numberOfSpaces >= 0
    ensures q.Valid() ==> (r.isExact <==> Abs(r.remainingSpace) < ExactTolerance)
    ensures r.lastPieceSize.Some? <==> q.Valid() && CutApplies(q, UncutLayout(q))
    ensures r.lastPieceSize.Some? ==>
      && r.lastPieceSize.value >= 0.0
      && r.numberOfPieces == UncutLayout(q).numberOfPieces + 1
      && r.numberOfSpaces == SpacesFor(q.Pattern(), r.numberOfPieces)
      && r.totalSpacesLength == UncutLayout(q).totalSpacesLength
    ensures q.Valid() && CutApplies(q, UncutLayout(q)) ==> r == CutLastPiece(q, UncutLayout(q))
    ensures q.Valid() && r.lastPieceSize.None? ==> r == UncutLayout(q)
  {
    if !q.Valid() then
      EmptyLayout(q.totalDistance)
    else
      var base := UncutLayout(q);
      if CutApplies(q, base) then CutLastPiece(q, base) else base
  }

  /**
   * Counting the spaces by number rather than by the reported total, the
   * pieces, spaces and remainder make up the distance.
   */
  lemma WrittenAccountsByCount(q: PiecesParams)
    requires q.Valid()
    ensures AccountsByCount(q, CalculateNumberOfPieces(q))
  {
    var base := UncutLayout(q);
    if CutApplies(q, base) {
      assert CalculateNumberOfPieces(q) == CutLastPiece(q, base);
    } else {
      assert CalculateNumberOfPieces(q) == base;
      assert AccountsByCount(q, base);
    }
  }

  /**
   * Without the extension no more pieces fit than the count reported, and
   * the reported count does fit.
   */
  lemma PieceCountIsLargest(q: PiecesParams, m: int)
    requires q.Valid()
    ensures var n := UncutLayout(q).numberOfPieces;
      && (n > 0 ==> Fits(q.Pattern(), n, q.totalDistance, q.pieceSize, q.spacingSize))
      && (m > n ==> !Fits(q.Pattern(), m, q.totalDistance, q.pieceSize, q.spacingSize))
  {
    var n := UncutLayout(q).numberOfPieces;
    FitsIffAtMostRaw(q.Pattern(), q.totalDistance, q.pieceSize, q.spacingSize, n);
    FitsIffAtMostRaw(q.Pattern(), q.totalDistance, q.pieceSize, q.spacingSize, m);
  }

  // calculateSpacingSize

  datatype SpacingParams = SpacingParams(
    totalDistance: real,
    pieceSize: real,
    numberOfPieces: int,
    startWithPiece: bool,
    endWithPiece: bool)
  {
    function Pattern(): Pattern {
      PatternOf(startWithPiece, endWithPiece)
    }

    predicate PositiveInputs() {
      totalDistance > 0.0 && pieceSize > 0.0 && numberOfPieces > 0
    }
  }

  datatype SpacingResult = SpacingResult(
    spacingSize: real,
    numberOfSpaces: int,
    totalPiecesLength: real,
    totalSpacesLength: real,
    isValid: bool,
    errorMessage: Option<string>)

  /** `calculateSpacingSize`. */
  function CalculateSpacingSize(q: SpacingParams): (r: SpacingResult)
    ensures r.isValid <==> r.errorMessage.None?
    ensures r.isValid <==> q.PositiveInputs() && q.numberOfPieces as real * q.pieceSize <= q.totalDistance
    ensures r.errorMessage == Some(InvalidInputMessage) <==> !q.PositiveInputs()
    ensures r.errorMessage == Some(TooLargeMessage)
        <==> q.PositiveInputs() && q.numberOfPieces as real * q.pieceSize > q.totalDistance
    ensures r.errorMessage != Some(NotEnoughPiecesMessage) && r.errorMessage != Some(NotEnoughSpaceMessage)
    ensures q.PositiveInputs() ==> r.totalPiecesLength == q.numberOfPieces as real * q.pieceSize
    ensures !q.PositiveInputs() ==> r.totalPiecesLength == 0.0
    ensures r.numberOfSpaces >= 0
    ensures r.isValid ==>
      r.numberOfSpaces == (if q.Pattern() == PieceToPiece && q.numberOfPieces == 1 then 0 else SpacesFor(q.Pattern(), q.numberOfPieces))
    ensures !r.isValid ==> r.spacingSize == 0.0 && r.numberOfSpaces == 0 && r.totalSpacesLength == 0.0
    ensures r.isValid && r.numberOfSpaces == 0 ==>
      q.Pattern() == PieceToPiece && q.numberOfPieces == 1 && r.spacingSize == 0.0 && r.totalSpacesLength == 0.0
    ensures r.isValid && r.numberOfSpaces > 0 ==>
      && r.numberOfSpaces == SpacesFor(q.Pattern(), q.numberOfPieces)
      && r.spacingSize * r.numberOfSpaces as real == r.totalSpacesLength
      && r.totalPiecesLength + r.totalSpacesLength == q.totalDistance
      && r.spacingSize >= 0.0
  {
    if q.totalDistance <= 0.0 || q.pieceSize <= 0.0 || q.numberOfPieces <= 0 then
      SpacingResult(0.0, 0, 0.0, 0.0, false, Some(InvalidInputMessage))
    else
      var totalPiecesLength := q.numberOfPieces as real * q.pieceSize;
      if totalPiecesLength > q.totalDistance then
        SpacingResult(0.0, 0, totalPiecesLength, 0.0, false, Some(TooLargeMessage))
      else
        var spaces := SpacesFor(q.Pattern(), q.numberOfPieces);
        if spaces <= 0 then
          if q.Pattern() == PieceToPiece && q.numberOfPieces == 1 then
            SpacingResult(0.0, 0, totalPiecesLength, 0.0, true, None)
          else
            SpacingResult(0.0, 0, totalPiecesLength, 0.0, false, Some(NotEnoughPiecesMessage))
        else
          var totalSpacesLength := q.totalDistance - totalPiecesLength;
          var spacingSize := totalSpacesLength / spaces as real;
          if spacingSize < 0.0 then
            SpacingResult(0.0, spaces, totalPiecesLength, 0.0, false, Some(NotEnoughSpaceMessage))
          else
            SpacingResult(spacingSize, spaces, totalPiecesLength, totalSpacesLength, true, None)
  }
}

=== FILE: calculator_properties.dfy ===
/**
 * How the two calculators relate: the layout without cutting never overruns
 * and accounts for the whole distance, and the trimmed piece is never longer
 * than a full one. A piece count survives both ways, from count to spacing
 * and back and from spacing to count and back. The spacing comes back only
 * when the fit is exact: unchanged when nothing was left over, less than
 * 0.01 larger otherwise.
 */
module CalculatorProperties {
  import opened Wrappers
  import opened Calculator

  /** Without a trimmed piece the reported layout fits and, with the remainder, makes up the distance. */
  lemma UncutLayoutAccounts(q: PiecesParams)
    requires q.Valid()
    ensures var r := CalculateNumberOfPieces(q);
      r.lastPieceSize.None? ==>
        && r.numberOfPieces as real * q.pieceSize + r.numberOfSpaces as real * q.spacingSize <= q.totalDistance
        && r.totalPiecesLength + r.totalSpacesLength + r.remainingSpace == q.totalDistance
        && (r.numberOfPieces > 0 ==> r.numberOfSpaces == SpacesFor(q.Pattern(), r.numberOfPieces))
  {
  }

  /**
   * The trimmed piece is shorter than a full piece: a full one would have
   * been counted already.
   */
  lemma TrimmedPieceIsShort(q: PiecesParams)
    requires q.Valid()
    ensures var r := CalculateNumberOfPieces(q);
      r.lastPieceSize.Some? ==> 0.0 <= r.lastPieceSize.value < q.pieceSize
  {
    var base := UncutLayout(q);
    var n := base.numberOfPieces;
    if q.Valid() && CutApplies(q, base) {
      PieceCountIsLargest(q, n + 1);
      var spaces := SpacesFor(q.Pattern(), n);
      assert SpacesFor(q.Pattern(), n + 1) == spaces + 1;
      assert (n + 1) as real * q.pieceSize == n as real * q.pieceSize + q.pieceSize;
      assert (spaces + 1) as real * q.spacingSize == spaces as real * q.spacingSize + q.spacingSize;
      assert base.remainingSpace - q.spacingSize < q.pieceSize;
    }
  }

  /**
   * When a spacing still fits after the counted pieces, the trimmed piece
   * closes the run exactly: nothing is left over and the fit is exact.
   */
  lemma TrimmedPieceFillsRun(q: PiecesParams)
    requires q.Valid()
    ensures var r := CalculateNumberOfPieces(q);
      r.lastPieceSize.Some? && UncutLayout(q).remainingSpace >= q.spacingSize ==>
        && r.remainingSpace == 0.0
        && r.isExact
        && r.totalPiecesLength + r.numberOfSpaces as real * q.spacingSize == q.totalDistance
  {
    var base := UncutLayout(q);
    if CutApplies(q, base) && base.remainingSpace >= q.spacingSize {
      var r := CutLastPiece(q, base);
      assert r.numberOfSpaces == base.numberOfSpaces + 1;
      assert r.numberOfSpaces as real * q.spacingSize == base.totalSpacesLength + q.spacingSize;
    }
  }

  /** A count whose layout takes the distance exactly is the count the floor formula gives. */
  lemma ExactCount(pattern: Pattern, totalDistance: real, pieceSize: real, spacingSize: real, n: int)
    requires pieceSize > 0.0 && spacingSize >= 0.0
    requires n as real * pieceSize + SpacesFor(pattern, n) as real * spacingSize == totalDistance
    ensures RawPieceCount(pattern, totalDistance, pieceSize, spacingSize) == n
  {
    FitsIffAtMostRaw(pattern, totalDistance, pieceSize, spacingSize, n);
    FitsIffAtMostRaw(pattern, totalDistance, pieceSize, spacingSize, n + 1);
    assert SpacesFor(pattern, n + 1) == SpacesFor(pattern, n) + 1;
    assert (n + 1) as real * pieceSize == n as real * pieceSize + pieceSize;
    assert (SpacesFor(pattern, n) + 1) as real * spacingSize == SpacesFor(pattern, n) as real * spacingSize + spacingSize;
  }

  /** A run that takes the distance exactly is the one counted, with nothing left over. */
  lemma ExactLayoutCounted(q: PiecesParams, n: int)
    requires q.Valid() && !q.cutLastPiece && n > 0
    requires n as real * q.pieceSize + SpacesFor(q.Pattern(), n) as real * q.spacingSize == q.totalDistance
    ensures var r := CalculateNumberOfPieces(q);
      r.numberOfPieces == n && r.numberOfSpaces == SpacesFor(q.Pattern(), n) && r.remainingSpace == 0.0 && r.isExact
  {
    ExactCount(q.Pattern(), q.totalDistance, q.pieceSize, q.spacingSize, n);
  }

  /** What a valid spacing with at least one space says about the run. */
  lemma SpacingLayout(q: SpacingParams)
    ensures var s := CalculateSpacingSize(q);
      s.isValid && s.numberOfSpaces > 0 ==>
        && q.numberOfPieces > 0
        && s.numberOfSpaces == SpacesFor(q.Pattern(), q.numberOfPieces)
        && s.spacingSize >= 0.0
        && q.pieceSize <= q.totalDistance
        && q.numberOfPieces as real * q.pieceSize + s.numberOfSpaces as real * s.spacingSize == q.totalDistance
  {
    var s := CalculateSpacingSize(q);
    if s.isValid && s.numberOfSpaces > 0 {
      var n := q.numberOfPieces;
      assert (n - 1) as real * q.pieceSize >= 0.0;
      assert n as real * q.pieceSize == (n - 1) as real * q.pieceSize + q.pieceSize;
    }
  }

  /**
   * Spreading `n` pieces with `calculateSpacingSize` and feeding the spacing
   * back to `calculateNumberOfPieces` gives the same `n` pieces with nothing
   * left over.
   */
  lemma SpacingThenPieces(q: SpacingParams)
    ensures var s := CalculateSpacingSize(q);
      s.isValid && s.numberOfSpaces > 0 ==>
        var r := CalculateNumberOfPieces(PiecesParams(q.totalDistance, q.pieceSize, s.spacingSize, q.startWithPiece, q.endWithPiece, false));
        && r.numberOfPieces == q.numberOfPieces
        && r.numberOfSpaces == s.numberOfSpaces
        && r.remainingSpace == 0.0
        && r.isExact
  {
    var s := CalculateSpacingSize(q);
    SpacingLayout(q);
    if s.isValid && s.numberOfSpaces > 0 {
      var p := PiecesParams(q.totalDistance, q.pieceSize, s.spacingSize, q.startWithPiece, q.endWithPiece, false);
      ExactLayoutCounted(p, q.numberOfPieces);
    }
  }

  lemma DivideOut(x: real, k: real, a: real, b: real)
    requires k > 0.0 && x * k == a * k + b
    ensures x == a + b / k
  {
    assert (a + b / k) * k == a * k + b;
    ScaleCompare(x, a + b / k, k);
    ScaleCompare(a + b / k, x, k);
  }

  lemma ShareIsSmaller(b: real, k: real)
    requires k >= 1.0
    ensures 0.0 <= b ==> 0.0 <= b / k <= b
    ensures b < ExactTolerance ==> b / k < ExactTolerance
  {
    var share := b / k;
    assert share * k == b;
    ScaleCompare(share, b, k);
    ScaleCompare(b, share, k);
    if 0.0 <= b {
      assert b * k >= b * 1.0;
    } else {
      assert share * k <= share;
    }
  }

  /** A run of pieces at spacing `gap` with `rest` left over is respread at `gap` plus the leftover per space. */
  lemma Respread(q: SpacingParams, gap: real, rest: real)
    requires q.PositiveInputs() && SpacesFor(q.Pattern(), q.numberOfPieces) > 0
    requires gap >= 0.0 && rest >= 0.0
    requires q.numberOfPieces as real * q.pieceSize + SpacesFor(q.Pattern(), q.numberOfPieces) as real * gap + rest == q.totalDistance
    ensures var s := CalculateSpacingSize(q);
      var k := SpacesFor(q.Pattern(), q.numberOfPieces);
      s.isValid && s.numberOfSpaces == k && s.spacingSize == gap + rest / k as real
  {
    var s := CalculateSpacingSize(q);
    var k := SpacesFor(q.Pattern(), q.numberOfPieces) as real;
    assert k * gap >= 0.0;
    assert s.isValid;
    assert s.spacingSize * k == gap * k + rest;
    DivideOut(s.spacingSize, k, gap, rest);
  }

  /**
   * Feeding a counted layout to `calculateSpacingSize` spreads the leftover
   * evenly: the new spacing is the old one plus the remainder per space, so
   * it never shrinks and grows by less than the tolerance when the fit was
   * exact.
   */
  lemma PiecesThenSpacing(q: PiecesParams)
    requires q.Valid()
    ensures var r := CalculateNumberOfPieces(q);
      r.lastPieceSize.None? && r.numberOfPieces > 0 && r.numberOfSpaces > 0 ==>
        var s := CalculateSpacingSize(SpacingParams(q.totalDistance, q.pieceSize, r.numberOfPieces, q.startWithPiece, q.endWithPiece));
        && s.isValid
        && s.numberOfSpaces == r.numberOfSpaces
        && s.spacingSize == q.spacingSize + r.remainingSpace / r.numberOfSpaces as real
        && s.spacingSize >= q.spacingSize
        && (r.isExact ==> s.spacingSize - q.spacingSize < ExactTolerance)
  {
    var r := CalculateNumberOfPieces(q);
    if r.lastPieceSize.None? && r.numberOfPieces > 0 && r.numberOfSpaces > 0 {
      UncutThenSpacing(q, r);
    }
  }

  /** The same for any layout that accounts for the distance the way an uncut one does. */
  lemma UncutThenSpacing(q: PiecesParams, r: PiecesResult)
    requires q.Valid() && r.numberOfPieces > 0
    requires r.numberOfSpaces == SpacesFor(q.Pattern(), r.numberOfPieces) > 0
    requires r.totalPiecesLength == r.numberOfPieces as real * q.pieceSize
    requires r.totalSpacesLength == r.numberOfSpaces as real * q.spacingSize
    requires r.totalPiecesLength + r.totalSpacesLength + r.remainingSpace == q.totalDistance
    requires r.remainingSpace >= 0.0
    requires r.isExact ==> r.remainingSpace < ExactTolerance
    ensures var s := CalculateSpacingSize(SpacingParams(q.totalDistance, q.pieceSize, r.numberOfPieces, q.startWithPiece, q.endWithPiece));
      && s.isValid
      && s.numberOfSpaces == r.numberOfSpaces
      && s.spacingSize == q.spacingSize + r.remainingSpace / r.numberOfSpaces as real
      && s.spacingSize >= q.spacingSize
      && (r.isExact ==> s.spacingSize - q.spacingSize < ExactTolerance)
  {
    var sp := SpacingParams(q.totalDistance, q.pieceSize, r.numberOfPieces, q.startWithPiece, q.endWithPiece);
    assert sp.Pattern() == q.Pattern();
    Respread(sp, q.spacingSize, r.remainingSpace);
    ShareIsSmaller(r.remainingSpace, r.numberOfSpaces as real);
  }

  // Findings: the extension as written.

  /**
   * 100 inches of 6-inch pieces at 4-inch spacing, pieces at both ends,
   * with the extension: ten pieces leave 4 inches, so an eleventh piece of
   * length 0 is added after a tenth spacing. The spaces total still counts
   * nine spaces, so the three lengths add up to 96, not 100.
   */
  lemma CutKeepsStaleSpacesTotal()
    ensures var r := CalculateNumberOfPieces(PiecesParams(100.0, 6.0, 4.0, true, true, true));
      && r.numberOfPieces == 11
      && r.numberOfSpaces == 10
      && r.lastPieceSize == Some(0.0)
      && r.totalPiecesLength == 60.0
      && r.totalSpacesLength == 36.0
      && r.remainingSpace == 0.0
      && r.totalPiecesLength + r.totalSpacesLength + r.remainingSpace != 100.0
  {
    var q := PiecesParams(100.0, 6.0, 4.0, true, true, true);
    assert RawPieceCount(PieceToPiece, 100.0, 6.0, 4.0) == 10;
  }

  /**
   * The same run on 99 inches: ten pieces leave 3 inches, less than one
   * spacing, yet an eleventh piece is added and the run overruns the
   * distance by an inch.
   */
  lemma CutOverrunsDistance()
    ensures var r := CalculateNumberOfPieces(PiecesParams(99.0, 6.0, 4.0, true, true, true));
      && r.numberOfPieces == 11
      && r.lastPieceSize == Some(0.0)
      && r.remainingSpace == -1.0
      && !r.isExact
  {
    assert RawPieceCount(PieceToPiece, 99.0, 6.0, 4.0) == 10;
  }

  // Findings: the extension as evidently intended.

  /**
   * `calculateNumberOfPieces` with the spaces total recomputed once the
   * extension adds a space. When to add a piece is decided as written.
   */
  function CalculateNumberOfPiecesCounted(q: PiecesParams): (r: PiecesResult)
    ensures r.totalSpacesLength == r.numberOfSpaces as real * q.spacingSize
    ensures SameButSpacesTotal(r, CalculateNumberOfPieces(q))
  {
    var written := CalculateNumberOfPieces(q);
    written.(totalSpacesLength := written.numberOfSpaces as real * q.spacingSize)
  }

  /** With the new space counted, pieces, spaces and remainder make up the distance for every input. */
  lemma CountedAccounts(q: PiecesParams)
    ensures var r := CalculateNumberOfPiecesCounted(q);
      r.totalPiecesLength + r.totalSpacesLength + r.remainingSpace == q.totalDistance
  {
    if q.Valid() {
      WrittenAccountsByCount(q);
    }
  }

  /** Two results that differ at most in their spaces totals. */
  predicate SameButSpacesTotal(a: PiecesResult, b: PiecesResult) {
    a.(totalSpacesLength := 0.0) == b.(totalSpacesLength := 0.0)
  }

  /**
   * `calculateNumberOfPieces` with the extension corrected: the spaces
   * total is recomputed, and the extra piece is added only when its
   * spacing still fits, so the run never overruns the distance.
   */
  function CalculateNumberOfPiecesFixed(q: PiecesParams): (r: PiecesResult)
    ensures !q.Valid() ==> r == EmptyLayout(q.totalDistance)
    ensures r.totalPiecesLength + r.totalSpacesLength + r.remainingSpace == q.totalDistance
    ensures q.Valid() ==> r.remainingSpace >= 0.0
    ensures q.Valid() ==> (r.isExact <==> Abs(r.remainingSpace) < ExactTolerance)
    ensures r.lastPieceSize.Some? <==>
      q.Valid() && CutApplies(q, UncutLayout(q)) && UncutLayout(q).remainingSpace >= q.spacingSize
    ensures r.lastPieceSize.Some? ==>
      && 0.0 <= r.lastPieceSize.value < q.pieceSize
      && r.remainingSpace == 0.0
      && r.isExact
      && r.numberOfPieces == UncutLayout(q).numberOfPieces + 1
      && r.numberOfSpaces == SpacesFor(q.Pattern(), r.numberOfPieces)
      && r.totalSpacesLength == r.numberOfSpaces as real * q.spacingSize
  {
    if !q.Valid() then
      EmptyLayout(q.totalDistance)
    else
      var base := UncutLayout(q);
      if CutApplies(q, base) && base.remainingSpace < q.spacingSize then
        base
      else
        TrimmedPieceIsShort(q);
        TrimmedPieceFillsRun(q);
        CountedAccounts(q);
        CalculateNumberOfPiecesCounted(q)
  }

  /**
   * Where a spacing still fits, the corrected calculation agrees with the
   * written one on everything but the spaces total.
   */
  lemma FixedAgreesWhereSpacingFits(q: PiecesParams)
    requires q.Valid() && UncutLayout(q).remainingSpace >= q.spacingSize
    ensures SameButSpacesTotal(CalculateNumberOfPiecesFixed(q), CalculateNumberOfPieces(q))
  {
  }

  /**
   * The 100-inch run of the first finding, corrected: eleven pieces, the
   * last of length 0, ten spaces totalling 40 inches, an exact fit.
   */
  lemma FixedOfHundredInches()
    ensures var r := CalculateNumberOfPiecesFixed(PiecesParams(100.0, 6.0, 4.0, true, true, true));
      && r.numberOfPieces == 11
      && r.numberOfSpaces == 10
      && r.lastPieceSize == Some(0.0)
      && r.totalPiecesLength == 60.0
      && r.totalSpacesLength == 40.0
      && r.remainingSpace == 0.0
      && r.isExact
  {
    assert RawPieceCount(PieceToPiece, 100.0, 6.0, 4.0) == 10;
  }

  /**
   * The 99-inch run of the second finding, corrected: no eleventh piece,
   * and the 3 inches after the tenth piece are left over.
   */
  lemma FixedOfNinetyNineInches()
    ensures var r := CalculateNumberOfPiecesFixed(PiecesParams(99.0, 6.0, 4.0, true, true, true));
      && r.numberOfPieces == 10
      && r.numberOfSpaces == 9
      && r.lastPieceSize.None?
      && r.remainingSpace == 3.0
      && !r.isExact
  {
    assert RawPieceCount(PieceToPiece, 99.0, 6.0, 4.0) == 10;
  }
}

=== FILE: measurement.dfy ===
/**
 * Feet-and-inches arithmetic and display: conversions, the split of an
 * inch count into whole feet and remaining inches, rounding, fractions of
 * an inch to the nearest sixteenth, and the two display formats.
 */
module Measurement {
  import opened Numerals

  const InchesPerFoot: int := 12
  /** Fractional inches below this are shown as a whole number of inches. */
  const FractionTolerance: real := 0.001
  const SixteenthsPerInch: int := 16

  // ---------------------------------------------------------------------
  // Conversions
  // ---------------------------------------------------------------------

  /** A length in feet as inches: twelve inches make a foot. */
  function FeetToInches(feet: real): (inches: real)
    ensures inches / InchesPerFoot as real == feet
  {
    feet * InchesPerFoot as real
  }

  /** A length in inches as feet: a foot is twelve inches. */
  function InchesToFeet(inches: real): (feet: real)
    ensures feet * InchesPerFoot as real == inches
  {
    inches / InchesPerFoot as real
  }

  /** The two conversions are inverse to each other. */
  lemma ConversionRoundTrip(x: real)
    ensures InchesToFeet(FeetToInches(x)) == x
    ensures FeetToInches(InchesToFeet(x)) == x
  {
  }

  /** Combines a feet field and an inches field into one inch count. */
  function FeetAndInchesToInches(feet: real, inches: real): (total: real)
    ensures InchesToFeet(total - inches) == feet
  {
    FeetToInches(feet) + inches
  }

  datatype FeetAndInches = FeetAndInches(feet: int, inches: real)

  /**
   * Whole feet and the inches left over. For a non-negative count the
   * remainder operator `%` of the source agrees with `t - 12 * floor(t / 12)`.
   */
  function InchesToFeetAndInches(totalInches: real): (r: FeetAndInches)
    requires totalInches >= 0.0
    ensures r.feet >= 0
    ensures 0.0 <= r.inches < InchesPerFoot as real
    ensures FeetAndInchesToInches(r.feet as real, r.inches) == totalInches
  {
    var feet := (totalInches / InchesPerFoot as real).Floor;
    FeetAndInches(feet, totalInches - InchesPerFoot as real * feet as real)
  }

  /** The split is the only pair of whole feet and inches below a foot that adds up to the count. */
  lemma SplitIsUnique(totalInches: real, feet: int, inches: real)
    requires 0.0 <= inches < InchesPerFoot as real
    requires FeetAndInchesToInches(feet as real, inches) == totalInches
    requires totalInches >= 0.0
    ensures InchesToFeetAndInches(totalInches) == FeetAndInches(feet, inches)
  {
    var q := totalInches / InchesPerFoot as real;
    assert feet as real <= q < feet as real + 1.0;
    assert q.Floor == feet;
  }

  // ---------------------------------------------------------------------
  // Rounding
  // ---------------------------------------------------------------------

  /** `Math.round`: the nearest integer, the larger one on a tie. */
  function Round(x: real): (n: int)
    ensures x - 0.5 < n as real <= x + 0.5
  {
    (x + 0.5).Floor
  }

  /** `Math.pow(10, decimals)`. */
  function Pow10Real(decimals: int): (m: real)
    ensures m > 0.0
  {
    if decimals >= 0 then Pow10(decimals) as real else 1.0 / Pow10(-decimals) as real
  }

  /**
   * `value` rounded to a multiple of `1 / scale`: scaled back, it is the
   * whole number nearest to the scaled input, the larger one on a tie.
   */
  function RoundToScale(value: real, scale: real): (r: real)
    requires scale > 0.0
    ensures r * scale == Round(value * scale) as real
  {
    var n := Round(value * scale);
    DivideThenMultiply(n as real, scale);
    n as real / scale
  }

  /** `roundToDecimals`: rounds at the `decimals`-th decimal place. */
  function RoundToDecimals(value: real, decimals: int): (r: real)
    ensures IsMultipleOf(r, Pow10Real(decimals))
    ensures WithinHalfUnit(r, value, Pow10Real(decimals))
  {
    RoundToScaleIsNearest(value, Pow10Real(decimals));
    RoundToScale(value, Pow10Real(decimals))
  }

  lemma DivideThenMultiply(x: real, m: real)
    requires m != 0.0
    ensures x / m * m == x
  {
  }

  predicate IsInteger(x: real) {
    x.Floor as real == x
  }

  /** `x` is a whole multiple of `1 / scale`. */
  predicate IsMultipleOf(x: real, scale: real) {
    IsInteger(x * scale)
  }

  /** `r`, scaled, lies within half a unit of `value`, scaled, or exactly half a unit above. */
  predicate WithinHalfUnit(r: real, value: real, scale: real) {
    value * scale - 0.5 < r * scale <= value * scale + 0.5
  }

  lemma RoundToScaleIsNearest(value: real, scale: real)
    requires scale > 0.0
    ensures IsMultipleOf(RoundToScale(value, scale), scale)
    ensures WithinHalfUnit(RoundToScale(value, scale), value, scale)
  {
    var n := Round(value * scale);
    assert (n as real).Floor == n;
  }

  lemma RoundOfInteger(k: int)
    ensures Round(k as real) == k
  {
  }

  lemma UnfoldRoundToScale(value: real, scale: real)
    requires scale > 0.0
    ensures RoundToScale(value, scale) == Round(value * scale) as real / scale
  {
  }

  lemma RoundToScaleIdempotent(value: real, scale: real)
    requires scale > 0.0
    ensures RoundToScale(RoundToScale(value, scale), scale) == RoundToScale(value, scale)
  {
    var n := Round(value * scale);
    var r := RoundToScale(value, scale);
    UnfoldRoundToScale(value, scale);
    DivideThenMultiply(n as real, scale);
    RoundOfInteger(n);
    assert Round(r * scale) == n;
    UnfoldRoundToScale(r, scale);
  }

  /**
   * The result of `roundToDecimals` is a whole multiple of 10^-decimals
   * lying within half of that unit of the input, and rounding it again
   * changes nothing.
   */
  lemma RoundToDecimalsProperties(value: real, decimals: int)
    ensures IsMultipleOf(RoundToDecimals(value, decimals), Pow10Real(decimals))
    ensures WithinHalfUnit(RoundToDecimals(value, decimals), value, Pow10Real(decimals))
    ensures RoundToDecimals(RoundToDecimals(value, decimals), decimals) == RoundToDecimals(value, decimals)
  {
    RoundToScaleIsNearest(value, Pow10Real(decimals));
    RoundToScaleIdempotent(value, Pow10Real(decimals));
  }

  // ---------------------------------------------------------------------
  // Validation
  // ---------------------------------------------------------------------

  /** A JavaScript number: a finite real, NaN, or an infinity. */
  datatype Number = Finite(value: real) | NaN | Infinity(positive: bool)

  /** `isValidMeasurement`: not NaN, finite, and above zero. */
  function IsValidMeasurement(v: Number): (ok: bool)
    ensures ok <==> v.Finite? && v.value > 0.0
  {
    !v.NaN? && !v.Infinity? && v.value > 0.0
  }

  // ---------------------------------------------------------------------
  // Fractions of an inch
  // ---------------------------------------------------------------------

  /** `d` is a positive divisor of `n`. */
  predicate Divides(d: int, n: int) {
    d > 0 && n % d == 0
  }

  lemma MulAtLeast(g: int, k: int)
    requires g > 0 && k >= 1
    ensures g * k >= g
  {
  }

  /** Euclidean division has only one quotient and remainder. */
  lemma ModUnique(a: int, g: int, q: int, r: int)
    requires g > 0 && 0 <= r < g && a == g * q + r
    ensures a % g == r
  {
    var q', r' := a / g, a % g;
    assert g * (q - q') == r' - r;
    if q - q' >= 1 {
      MulAtLeast(g, q - q');
    } else if q' - q >= 1 {
      MulAtLeast(g, q' - q);
    }
  }

  lemma MultipleMod(g: int, m: int)
    requires g > 0
    ensures (g * m) % g == 0
  {
    ModUnique(g * m, g, m, 0);
  }

  lemma DividesCombination(g: int, a: int, b: int, q: int)
    requires Divides(g, a) && Divides(g, b)
    ensures Divides(g, q * a + b)
  {
    var ka, kb := a / g, b / g;
    assert a == g * ka;
    assert b == g * kb;
    assert q * a + b == g * (q * ka + kb);
    MultipleMod(g, q * ka + kb);
  }

  /** One Euclidean step keeps the common divisors. */
  lemma EuclidStep(a: int, b: int)
    requires a >= 0 && b > 0
    ensures forall c :: Divides(c, b) && Divides(c, a % b) ==> Divides(c, a)
    ensures forall c :: Divides(c, a) && Divides(c, b) ==> Divides(c, a % b)
  {
    assert a == (a / b) * b + a % b;
    forall c | Divides(c, b) && Divides(c, a % b)
      ensures Divides(c, a)
    {
      DividesCombination(c, b, a % b, a / b);
    }
    forall c | Divides(c, a) && Divides(c, b)
      ensures Divides(c, a % b)
    {
      assert a % b == (-(a / b)) * b + a;
      DividesCombination(c, b, a, -(a / b));
    }
  }

  /**
   * `greatestCommonDivisor`, Euclid's algorithm. It is called only with
   * non-negative arguments, for which the remainder never goes negative.
   */
  function Gcd(a: int, b: int): (g: int)
    requires a >= 0 && b >= 0
    ensures g >= 0
    ensures g == 0 <==> a == 0 && b == 0
    ensures g > 0 ==> Divides(g, a) && Divides(g, b)
    ensures forall c :: Divides(c, a) && Divides(c, b) ==> Divides(c, g)
    decreases b
  {
    if b == 0 then
      a
    else
      EuclidStep(a, b);
      Gcd(b, a % b)
  }

  datatype Fraction = Fraction(numerator: int, denominator: int)

  /** `simplifyFraction`: the same ratio in lowest terms. */
  function SimplifyFraction(numerator: int, denominator: int): (f: Fraction)
    requires numerator >= 0 && denominator > 0
    ensures f.denominator > 0 && f.numerator >= 0
    ensures f.numerator * denominator == numerator * f.denominator
    ensures forall c :: Divides(c, f.numerator) && Divides(c, f.denominator) ==> c == 1
  {
    var g := Gcd(numerator, denominator);
    var f := Fraction(numerator / g, denominator / g);
    LowestTerms(numerator, denominator, g);
    f
  }

  lemma ScaledDivisor(c: int, g: int, x: int)
    requires Divides(g, x) && Divides(c, x / g)
    ensures Divides(c * g, x)
  {
    var k := (x / g) / c;
    assert x / g == c * k;
    assert x == g * (x / g);
    assert x == (c * g) * k;
    MultipleMod(c * g, k);
  }

  lemma DivisorBound(d: int, n: int)
    requires Divides(d, n) && n > 0
    ensures d <= n
  {
    var m := n / d;
    assert n == d * m;
    assert m >= 1;
    MulAtLeast(d, m);
  }

  lemma DividesExact(g: int, a: int)
    requires Divides(g, a)
    ensures a == g * (a / g)
  {
  }

  lemma CrossProduct(g: int, x: int, y: int)
    ensures x * (g * y) == (g * x) * y
  {
  }

  lemma LowestTerms(a: int, b: int, g: int)
    requires a >= 0 && b > 0 && g == Gcd(a, b)
    ensures g > 0 && b / g > 0 && a / g >= 0
    ensures (a / g) * b == a * (b / g)
    ensures forall c :: Divides(c, a / g) && Divides(c, b / g) ==> c == 1
  {
    DividesExact(g, a);
    DividesExact(g, b);
    CrossProduct(g, a / g, b / g);
    forall c | Divides(c, a / g) && Divides(c, b / g)
      ensures c == 1
    {
      ScaledDivisor(c, g, a);
      ScaledDivisor(c, g, b);
      CommonDivisorIsOne(g, c);
    }
  }

  lemma CommonDivisorIsOne(g: int, c: int)
    requires g > 0 && c > 0 && Divides(c * g, g)
    ensures c == 1
  {
    DivisorBound(c * g, g);
  }

  // ---------------------------------------------------------------------
  // Sixteenths of an inch
  // ---------------------------------------------------------------------

  type Positive = n: int | n > 0 witness 1

  /**
   * What `decimalToFraction` shows: a whole number, or a whole part and a
   * proper fraction in lowest terms.
   */
  datatype InchFraction = Whole(n: int) | Mixed(whole: int, numerator: nat, denominator: Positive)

  function ValueOf(f: InchFraction): real {
    match f
    case Whole(n) => n as real
    case Mixed(w, num, den) => w as real + num as real / den as real
  }

  /** The divisors of 16 below 16. */
  lemma DivisorsOfSixteen(g: int)
    requires 0 < g < 16 && 16 % g == 0
    ensures g == 1 || g == 2 || g == 4 || g == 8
  {
    assert g == 1 || g == 2 || g == 3 || g == 4 || g == 5 || g == 6 || g == 7 || g == 8
        || g == 9 || g == 10 || g == 11 || g == 12 || g == 13 || g == 14 || g == 15;
  }

  lemma QuotientsOfSixteen(g: int)
    requires g == 1 || g == 2 || g == 4 || g == 8
    ensures 16 / g == 16 || 16 / g == 8 || 16 / g == 4 || 16 / g == 2
  {
    if g == 1 {
    } else if g == 2 {
    } else if g == 4 {
    } else {
    }
  }

  /** The reduced forms of the fractions k/16 for 0 < k < 16. */
  lemma SixteenthsReduced(k: int)
    requires 0 < k < SixteenthsPerInch
    ensures var f := SimplifyFraction(k, SixteenthsPerInch);
      && f.denominator in {2, 4, 8, 16}
      && f.numerator % 2 == 1
      && 0 < f.numerator < f.denominator
      && f.numerator * SixteenthsPerInch == k * f.denominator
  {
    var g := Gcd(k, 16);
    var f := SimplifyFraction(k, 16);
    assert f == Fraction(k / g, 16 / g);
    DivisorBound(g, 16);
    DivisorBound(g, k);
    DivisorsOfSixteen(g);
    QuotientsOfSixteen(g);
    if f.numerator % 2 == 0 {
      assert Divides(2, f.numerator) && Divides(2, f.denominator);
    }
  }

  /**
   * The value `decimalToFraction` shows for `x`: the whole part alone when
   * the fractional part is below the tolerance, otherwise the fractional
   * part rounded to sixteenths, carried into the whole part at 16/16 and
   * reduced to lowest terms.
   */
  function NearestSixteenths(x: real): (f: InchFraction)
    ensures IsMultipleOf(ValueOf(f), SixteenthsPerInch as real)
    ensures x.Floor as real <= ValueOf(f)
    ensures x - x.Floor as real < FractionTolerance ==> ValueOf(f) == x.Floor as real
    ensures x - x.Floor as real >= FractionTolerance ==> WithinHalfUnit(ValueOf(f), x, SixteenthsPerInch as real)
    ensures f.Mixed? ==>
      && f.whole == x.Floor
      && f.denominator in {2, 4, 8, 16}
      && f.numerator % 2 == 1
      && 0 < f.numerator < f.denominator
    ensures f.Mixed? <==> !IsInteger(ValueOf(f))
  {
    var whole := x.Floor;
    var fractional := x - whole as real;
    if fractional < FractionTolerance then
      WholeIsSixteenth(whole);
      Whole(whole)
    else
      var sixteenths := Round(fractional * SixteenthsPerInch as real);
      assert 0 <= sixteenths <= SixteenthsPerInch;
      SixteenthsClose(x, whole, sixteenths);
      Sixteenths(whole, sixteenths)
  }

  /**
   * `whole` and `k` sixteenths: a whole number when `k` is 0 or 16 (the
   * carry), otherwise the mixed number with `k/16` in lowest terms.
   */
  function Sixteenths(whole: int, k: int): (f: InchFraction)
    requires 0 <= k <= SixteenthsPerInch
    ensures ValueOf(f) == whole as real + k as real / SixteenthsPerInch as real
    ensures IsMultipleOf(ValueOf(f), SixteenthsPerInch as real)
    ensures f.Mixed? ==>
      && f.whole == whole
      && f.denominator in {2, 4, 8, 16}
      && f.numerator % 2 == 1
      && 0 < f.numerator < f.denominator
    ensures f.Mixed? <==> !IsInteger(ValueOf(f))
  {
    if k == SixteenthsPerInch then
      WholeIsSixteenth(whole + 1);
      Whole(whole + 1)
    else if k == 0 then
      WholeIsSixteenth(whole);
      Whole(whole)
    else
      var reduced := SimplifyFraction(k, SixteenthsPerInch);
      SixteenthsReduced(k);
      MixedValue(whole, reduced.numerator, reduced.denominator, k);
      Mixed(whole, reduced.numerator, reduced.denominator)
  }

  lemma WholeIsSixteenth(n: int)
    ensures IsMultipleOf(n as real, 16.0)
    ensures IsInteger(n as real)
  {
    assert (n as real * 16.0).Floor == n * 16;
  }

  lemma MixedValue(whole: int, num: nat, den: Positive, k: int)
    requires num * 16 == k * den && 0 < num < den
    ensures whole as real + num as real / den as real == whole as real + k as real / 16.0
    ensures IsMultipleOf(whole as real + num as real / den as real, 16.0)
    ensures !IsInteger(whole as real + num as real / den as real)
  {
    var v := whole as real + num as real / den as real;
    assert num as real / den as real == k as real / 16.0;
    assert v * 16.0 == (whole * 16 + k) as real;
    assert ((whole * 16 + k) as real).Floor == whole * 16 + k;
    assert 0.0 < num as real / den as real < 1.0;
    assert v.Floor == whole;
  }

  lemma SixteenthsClose(x: real, whole: int, k: int)
    requires whole == x.Floor
    requires k == Round((x - whole as real) * 16.0)
    ensures WithinHalfUnit(whole as real + k as real / 16.0, x, 16.0)
  {
    var v := whole as real + k as real / 16.0;
    assert v * 16.0 == whole as real * 16.0 + k as real;
  }

  /** Digits, a minus sign, a space and a slash: no feet or inch marks. */
  predicate NoMarks(s: string) {
    forall i :: 0 <= i < |s| ==> s[i] != '\'' && s[i] != '"'
  }

  lemma IntToStringNoMarks(i: int)
    ensures NoMarks(IntToString(i))
  {
    var s := IntToString(i);
    if i < 0 {
      assert forall j :: 1 <= j < |s| ==> s[j] == s[1..][j - 1];
    }
  }

  /** The text `decimalToFraction` writes for an `InchFraction`. */
  function RenderFraction(f: InchFraction): (s: string)
    ensures NoMarks(s)
    ensures '/' in s <==> f.Mixed?
  {
    match f
    case Whole(n) =>
      IntToStringNoMarks(n);
      IntToString(n)
    case Mixed(w, num, den) =>
      var text := NatToString(num) + "/" + NatToString(den);
      IntToStringNoMarks(w);
      if w == 0 then text else IntToString(w) + " " + text
  }

  /** `decimalToFraction`: `x` in whole inches and sixteenths, as text. */
  function DecimalToFraction(x: real): (s: string)
    ensures NoMarks(s)
    ensures '/' in s <==> !IsInteger(ValueOf(NearestSixteenths(x)))
  {
    RenderFraction(NearestSixteenths(x))
  }

  // ---------------------------------------------------------------------
  // Display
  // ---------------------------------------------------------------------

  /**
   * `x.toFixed(2)` for a non-negative `x`: the integer `n` nearest to
   * `100 x` (the larger one on a tie) written with two decimals.
   */
  function ToFixed2(x: real): (s: string)
    requires x >= 0.0
    ensures NoMarks(s)
    ensures |s| >= 4 && s[|s| - 3] == '.' && IsDigit(s[|s| - 2]) && IsDigit(s[|s| - 1])
    ensures forall i :: 0 <= i < |s| - 3 ==> IsDigit(s[i])
  {
    var n := Round(x * 100.0);
    var text := NatToString(n / 100) + "." + TwoDigits(n % 100);
    assert forall i :: 0 <= i < |text| ==> IsDigit(text[i]) || text[i] == '.';
    text
  }

  /** The count is a whole number of feet. */
  predicate WholeFeet(totalInches: real) {
    IsInteger(totalInches / InchesPerFoot as real)
  }

  lemma SplitRemainder(totalInches: real)
    requires totalInches >= 0.0
    ensures InchesToFeetAndInches(totalInches).feet > 0 <==> totalInches >= InchesPerFoot as real
    ensures InchesToFeetAndInches(totalInches).inches == 0.0 <==> WholeFeet(totalInches)
  {
    var q := totalInches / 12.0;
    var feet := q.Floor;
    assert totalInches - 12.0 * feet as real == 12.0 * (q - feet as real);
  }

  /**
   * `formatMeasurement`: feet and inches to two decimals. The feet are left
   * out below one foot and the inches are left out on a whole number of feet.
   */
  function FormatMeasurement(totalInches: real): (s: string)
    requires totalInches >= 0.0
    ensures |s| > 0
    ensures '\'' in s <==> totalInches >= InchesPerFoot as real
    ensures s[|s| - 1] == '\'' <==> totalInches >= InchesPerFoot as real && WholeFeet(totalInches)
    ensures s[|s| - 1] == '"' <==> !(totalInches >= InchesPerFoot as real && WholeFeet(totalInches))
  {
    var split := InchesToFeetAndInches(totalInches);
    SplitRemainder(totalInches);
    IntToStringNoMarks(split.feet);
    if split.feet == 0 then
      ToFixed2(split.inches) + "\""
    else if split.inches == 0.0 then
      IntToString(split.feet) + "'"
    else
      IntToString(split.feet) + "' " + ToFixed2(split.inches) + "\""
  }

  /**
   * `formatMeasurementWithFractions`: like `FormatMeasurement`, with the
   * inches written in sixteenths.
   */
  function FormatMeasurementWithFractions(totalInches: real): (s: string)
    requires totalInches >= 0.0
    ensures |s| > 0
    ensures '\'' in s <==> totalInches >= InchesPerFoot as real
    ensures s[|s| - 1] == '\'' <==> totalInches >= InchesPerFoot as real && WholeFeet(totalInches)
    ensures s[|s| - 1] == '"' <==> !(totalInches >= InchesPerFoot as real && WholeFeet(totalInches))
  {
    var split := InchesToFeetAndInches(totalInches);
    var inchesText := DecimalToFraction(split.inches);
    SplitRemainder(totalInches);
    IntToStringNoMarks(split.feet);
    if split.feet == 0 then
      inchesText + "\""
    else if split.inches == 0.0 then
      IntToString(split.feet) + "'"
    else
      IntToString(split.feet) + "' " + inchesText + "\""
  }

  // ---------------------------------------------------------------------
  // Sixteenths shown whole: the display rounded before the split
  // ---------------------------------------------------------------------

  /** A whole number of sixteenths is shown as exactly that value. */
  lemma SixteenthShownExactly(y: real)
    requires IsMultipleOf(y, SixteenthsPerInch as real)
    ensures ValueOf(NearestSixteenths(y)) == y
  {
    var w := y.Floor;
    var m := (y * 16.0).Floor;
    var k := m - 16 * w;
    var fractional := y - w as real;
    assert fractional * 16.0 == k as real;
    assert 0 <= k < 16;
    if k == 0 {
      assert fractional == 0.0;
    } else {
      assert fractional >= 0.0625;
      RoundOfInteger(k);
    }
  }

  /** Taking whole feet off a whole number of sixteenths leaves a whole number of sixteenths. */
  lemma MultipleLessFeet(v: real, feet: int)
    requires IsMultipleOf(v, SixteenthsPerInch as real)
    ensures IsMultipleOf(v - FeetToInches(feet as real), SixteenthsPerInch as real)
  {
    var m := (v * 16.0).Floor;
    assert (v - FeetToInches(feet as real)) * 16.0 == (m - 192 * feet) as real;
  }

  /**
   * The length the fractional display stands for: `totalInches` to the
   * nearest sixteenth, or its whole part within the tolerance.
   */
  function ShownLength(totalInches: real): (v: real)
    requires totalInches >= 0.0
    ensures v >= 0.0
    ensures IsMultipleOf(v, SixteenthsPerInch as real)
    ensures totalInches - totalInches.Floor as real >= FractionTolerance ==>
      WithinHalfUnit(v, totalInches, SixteenthsPerInch as real)
  {
    ValueOf(NearestSixteenths(totalInches))
  }

  /**
   * `FormatMeasurementWithFractions` with the length rounded to sixteenths
   * before it is split into feet and inches, so that inches rounding up to
   * a whole foot carry into the feet.
   */
  function FormatMeasurementWithFractionsFixed(totalInches: real): (s: string)
    requires totalInches >= 0.0
    ensures |s| > 0
    ensures '\'' in s <==> ShownLength(totalInches) >= InchesPerFoot as real
    ensures s[|s| - 1] == '\'' <==>
      ShownLength(totalInches) >= InchesPerFoot as real && WholeFeet(ShownLength(totalInches))
  {
    FormatMeasurementWithFractions(ShownLength(totalInches))
  }

  /**
   * Once the length is rounded first, the inches written are exactly the
   * inches left over after the whole feet, and so always below a foot.
   */
  lemma FixedShowsInchesBelowAFoot(totalInches: real)
    requires totalInches >= 0.0
    ensures var split := InchesToFeetAndInches(ShownLength(totalInches));
      && ValueOf(NearestSixteenths(split.inches)) == split.inches
      && split.inches < InchesPerFoot as real
  {
    var v := ShownLength(totalInches);
    var split := InchesToFeetAndInches(v);
    assert split.inches == v - FeetToInches(split.feet as real);
    MultipleLessFeet(v, split.feet);
    SixteenthShownExactly(split.inches);
  }
}

=== FILE: measurement_examples.dfy ===
/** The worked examples of the measurement helpers, checked against the model. */
module MeasurementExamples {
  import opened Numerals
  import opened Measurement

  /** 4.0625 inches is four and one sixteenth. */
  lemma NearestOfFourAndASixteenth()
    ensures NearestSixteenths(4.0625) == Mixed(4, 1, 16)
  {
    assert 4.0625.Floor == 4;
    assert Round(0.0625 * 16.0) == 1;
    assert Gcd(1, 16) == 1;
  }

  /** 4.0625 inches is shown as four and one sixteenth. */
  lemma FractionOfFourAndASixteenth()
    ensures DecimalToFraction(4.0625) == "4 1/16"
  {
    NearestOfFourAndASixteenth();
    assert NatToString(16) == "16";
    assert IntToString(4) == "4";
  }

  /** A whole number of inches is shown without a fraction. */
  lemma FractionOfWholeNumber()
    ensures DecimalToFraction(4.0) == "4"
  {
    assert 4.0.Floor == 4;
  }

  /** A value just under a whole inch rounds up to the next inch. */
  lemma FractionJustBelowWhole()
    ensures DecimalToFraction(0.999999) == "1"
  {
    assert 0.999999.Floor == 0;
    assert Round(0.999999 * 16.0) == 16;
  }

  /** 126.5 inches is ten feet six and a half inches. */
  lemma FractionsFormatOfTenFeetSixAndAHalf()
    ensures FormatMeasurementWithFractions(126.5) == "10' 6 1/2\""
  {
    assert (126.5 / 12.0).Floor == 10;
    assert InchesToFeetAndInches(126.5) == FeetAndInches(10, 6.5);
    assert 6.5.Floor == 6;
    assert Round(0.5 * 16.0) == 8;
    assert Gcd(8, 16) == 8;
    assert DecimalToFraction(6.5) == "6 1/2";
    assert NatToString(10) == "10";
  }

  /** 126 inches is ten feet six inches with two decimals. */
  lemma FormatOfTenFeetSix()
    ensures FormatMeasurement(126.0) == "10' 6.00\""
  {
    assert (126.0 / 12.0).Floor == 10;
    assert InchesToFeetAndInches(126.0) == FeetAndInches(10, 6.0);
    assert Round(6.0 * 100.0) == 600;
    assert NatToString(10) == "10";
  }

  /** 11.99 inches are shown as twelve whole inches. */
  lemma NearestOfElevenPointNineNine()
    ensures NearestSixteenths(11.99) == Whole(12)
  {
    assert 11.99.Floor == 11;
    assert Round((11.99 - 11.0) * 16.0) == 16;
  }

  /**
   * As written, 131.99 inches are shown as ten feet and twelve inches: the
   * inches left over, 11.99, round up to a whole foot after the split.
   */
  lemma FractionsShowTwelveInches()
    ensures ValueOf(NearestSixteenths(InchesToFeetAndInches(131.99).inches)) == InchesPerFoot as real
    ensures FormatMeasurementWithFractions(131.99) == "10' 12\""
  {
    assert (131.99 / 12.0).Floor == 10;
    assert InchesToFeetAndInches(131.99) == FeetAndInches(10, 11.99);
    NearestOfElevenPointNineNine();
    assert DecimalToFraction(11.99) == "12";
    assert NatToString(10) == "10";
  }

  /** Rounded before the split, the same length is shown as eleven feet. */
  lemma FixedShowsElevenFeet()
    ensures FormatMeasurementWithFractionsFixed(131.99) == "11'"
  {
    assert 131.99.Floor == 131;
    assert Round((131.99 - 131.0) * 16.0) == 16;
    assert NearestSixteenths(131.99) == Whole(132);
    assert (132.0 / 12.0).Floor == 11;
    assert InchesToFeetAndInches(132.0) == FeetAndInches(11, 0.0);
    assert NatToString(11) == "11";
  }
}

=== FILE: measurement_parser.dfy ===
/**
 * `parseMeasurement`: free text such as `10' 6"`, `10ft 6in` or `6` read
 * as a number of inches.
 */
module MeasurementParser {
  import opened Wrappers
  import opened Numerals
  import opened Text
  import Measurement

  const FeetMark: char := '\''
  const InchMark: char := '"'

  /**
   * The word forms of the two units rewritten to their marks, in the order
   * the source applies the replacements.
   */
  function Normalize(s: string): (r: string)
    ensures r == [] <==> s == []
    ensures forall i :: !OccursAt(r, "in", i)
  {
    var s1 := ReplaceAll(s, "feet", "'");
    var s2 := ReplaceAll(s1, "foot", "'");
    var s3 := ReplaceAll(s2, "ft", "'");
    var s4 := ReplaceAll(s3, "inches", "\"");
    var s5 := ReplaceAll(s4, "inch", "\"");
    ReplaceAllRemovesWord(s5, "in", "\"");
    ReplaceAll(s5, "in", "\"")
  }

  /** The text the source matches against: trimmed, lower-cased, words rewritten. */
  function Clean(input: string): (r: string)
    ensures r == [] <==> AllWhitespace(input)
    ensures forall i :: !OccursAt(r, "in", i)
  {
    Normalize(ToLower(Trim(input)))
  }

  /** Length of the run of digits that starts `s`. */
  function DigitRun(s: string): (k: nat)
    ensures k <= |s| && AllDigits(s[..k])
    ensures k < |s| ==> !IsDigit(s[k])
  {
    if |s| > 0 && IsDigit(s[0]) then
      var k := 1 + DigitRun(s[1..]);
      assert forall i :: 1 <= i < k ==> s[..k][i] == s[1..][..k - 1][i - 1];
      k
    else
      0
  }

  /** Length of the run of whitespace that starts `s`. */
  function WhitespaceRun(s: string): (k: nat)
    ensures k <= |s| && AllWhitespace(s[..k])
    ensures k < |s| ==> !IsWhitespace(s[k])
  {
    if |s| > 0 && IsWhitespace(s[0]) then
      var k := 1 + WhitespaceRun(s[1..]);
      assert forall i :: 1 <= i < k ==> s[..k][i] == s[1..][..k - 1][i - 1];
      k
    else
      0
  }

  /**
   * Where `\d+\.?\d*` ends when matched at the start of `s`, or 0 when `s`
   * does not start with a digit. Backtracking inside the pattern cannot
   * produce a different end that the rest of the expression accepts, so the
   * greedy end is the only one.
   */
  function NumberEnd(s: string): (k: nat)
    ensures k <= |s|
    ensures k == 0 <==> |s| == 0 || !IsDigit(s[0])
    ensures k > 0 && k < |s| ==> !IsDigit(s[k])
    ensures k > 0 && k < |s| && s[k] == '.' ==> DigitRun(s) < k
  {
    var j := DigitRun(s);
    if j == 0 then 0
    else if j < |s| && s[j] == '.' then j + 1 + DigitRun(s[j + 1..])
    else j
  }

  /**
   * Text that `\d+\.?\d*` matches as a whole: a digit first, then digits
   * and at most one point.
   */
  predicate IsNumberText(t: string) {
    && |t| > 0 && IsDigit(t[0])
    && (forall i :: 0 <= i < |t| ==> IsDigit(t[i]) || t[i] == '.')
    && (forall i, j :: 0 <= i < j < |t| && t[i] == '.' ==> t[j] != '.')
  }

  /**
   * The greedy end is the longest number text at the start of `s`: the text
   * up to it is a number, and no longer prefix is one. Without a leading
   * digit no prefix is a number.
   */
  lemma NumberEndIsLongest(s: string)
    ensures var k := NumberEnd(s);
      && (k > 0 ==> IsNumberText(s[..k]))
      && (forall m :: k < m <= |s| ==> !IsNumberText(s[..m]))
  {
    var k := NumberEnd(s);
    var j := DigitRun(s);
    if k > 0 {
      assert forall i :: 0 <= i < k ==> s[..k][i] == s[i];
    }
    forall m | k < m <= |s|
      ensures !IsNumberText(s[..m])
    {
      var t := s[..m];
      if k == 0 {
        assert t[0] == s[0];
      } else {
        assert t[k] == s[k];
        if s[k] == '.' {
          assert t[j] == s[j] == '.';
        }
      }
    }
  }

  /**
   * Every character the greedy reading takes is a digit, except the one
   * point that directly follows the leading digit run.
   */
  lemma NumberEndChars(s: string)
    ensures var k := NumberEnd(s);
      k > 0 ==> forall i :: 0 <= i < k ==> IsDigit(s[i]) || (s[i] == '.' && i == DigitRun(s))
  {
    var k := NumberEnd(s);
    var j := DigitRun(s);
    forall i | 0 <= i < j
      ensures IsDigit(s[i])
    {
      assert s[..j][i] == s[i];
    }
    if k > j {
      var t := s[j + 1..];
      var f := DigitRun(t);
      forall i | j < i < k
        ensures IsDigit(s[i])
      {
        assert t[..f][i - j - 1] == s[i];
      }
    }
  }

  /** The value `parseFloat` gives the matched text `s[..NumberEnd(s)]`. */
  function NumberValue(s: string): real
    requires NumberEnd(s) > 0
  {
    var j := DigitRun(s);
    var whole := DigitsValue(s[..j]) as real;
    if j < |s| && s[j] == '.' then
      var f := DigitRun(s[j + 1..]);
      whole + FractionValue(s[j + 1..][..f])
    else
      whole
  }

  /**
   * `(\d+\.?\d*)\s*mark` matched at the start of `s`: the value of the
   * captured number when it matches.
   */
  function MarkedNumberAt(s: string, mark: char): (r: Option<real>)
    ensures r.Some? ==> |s| > 0 && IsDigit(s[0])
  {
    var k := NumberEnd(s);
    if k == 0 then None
    else
      var w := k + WhitespaceRun(s[k..]);
      if w < |s| && s[w] == mark then
        Some(NumberValue(s))
      else
        None
  }

  lemma MarkedWitness(s: string, mark: char, j: nat, k: nat)
    requires 0 < j <= k < |s| && IsNumberText(s[..j]) && AllWhitespace(s[j..k]) && s[k] == mark
    ensures MatchesMarkedNumber(s, mark)
  {
  }

  /**
   * `(\d+\.?\d*)\s*mark` matches at the start of `s`, read as a regular
   * expression: a number text, then whitespace, then the mark.
   */
  predicate MatchesMarkedNumber(s: string, mark: char) {
    exists j, k :: 0 < j <= k < |s| && IsNumberText(s[..j]) && AllWhitespace(s[j..k]) && s[k] == mark
  }

  /** A match of the greedy reading is a match of the regular expression. */
  lemma MarkedNumberAtSound(s: string, mark: char)
    requires MarkedNumberAt(s, mark).Some?
    ensures MatchesMarkedNumber(s, mark)
  {
    var e := NumberEnd(s);
    var w := e + WhitespaceRun(s[e..]);
    NumberEndIsLongest(s);
    assert s[e..w] == s[e..][..w - e];
    MarkedWitness(s, mark, e, w);
  }

  /**
   * A number text that is followed by neither a digit nor a point ends
   * where the greedy reading ends.
   */
  lemma NumberTextEnd(s: string, j: nat)
    requires 0 < j < |s| && IsNumberText(s[..j])
    requires !IsDigit(s[j]) && s[j] != '.'
    ensures NumberEnd(s) == j
  {
    NumberEndIsLongest(s);
    assert s[..j][0] == s[0];
  }

  /** A whitespace prefix that stops at a non-whitespace character is the whole run. */
  lemma WhitespaceRunEnd(t: string, k: nat)
    requires k < |t| && AllWhitespace(t[..k]) && !IsWhitespace(t[k])
    ensures WhitespaceRun(t) == k
  {
    var wr := WhitespaceRun(t);
    forall i | 0 <= i < k
      ensures IsWhitespace(t[i])
    {
      assert t[..k][i] == t[i];
    }
    forall i | 0 <= i < wr
      ensures IsWhitespace(t[i])
    {
      assert t[..wr][i] == t[i];
    }
  }

  /** A match of the regular expression is found by the greedy reading. */
  lemma MarkedNumberAtComplete(s: string, mark: char, j: nat, k: nat)
    requires !IsDigit(mark) && mark != '.' && !IsWhitespace(mark)
    requires 0 < j <= k < |s| && IsNumberText(s[..j]) && AllWhitespace(s[j..k]) && s[k] == mark
    ensures MarkedNumberAt(s, mark).Some?
  {
    assert IsWhitespace(s[j]) || s[j] == mark by {
      if j < k { assert s[j..k][0] == s[j]; }
    }
    NumberTextEnd(s, j);
    assert s[j..][..k - j] == s[j..k];
    WhitespaceRunEnd(s[j..], k - j);
  }

  /**
   * For a mark that is neither a digit, a point nor whitespace, as both of
   * the source's marks are, the greedy reading finds a match exactly when
   * the regular expression has one.
   */
  lemma MarkedNumberAtMatches(s: string, mark: char)
    requires !IsDigit(mark) && mark != '.' && !IsWhitespace(mark)
    ensures MarkedNumberAt(s, mark).Some? <==> MatchesMarkedNumber(s, mark)
  {
    if MarkedNumberAt(s, mark).Some? {
      MarkedNumberAtSound(s, mark);
    }
    if MatchesMarkedNumber(s, mark) {
      var j, k :| 0 < j <= k < |s| && IsNumberText(s[..j]) && AllWhitespace(s[j..k]) && s[k] == mark;
      MarkedNumberAtComplete(s, mark, j, k);
    }
  }

  /**
   * `s.match(/(\d+\.?\d*)\s*mark/)`: the value of the number at the leftmost
   * position where the pattern matches, if there is one.
   */
  function FindMarkedNumber(s: string, mark: char): (r: Option<real>)
    ensures r.None? <==> forall i :: 0 <= i < |s| ==> MarkedNumberAt(s[i..], mark).None?
  {
    var matchesAt := t => MarkedNumberAt(t, mark).Some?;
    match FirstMatch(s, matchesAt)
    case None =>
      assert forall i :: 0 <= i < |s| ==> !matchesAt(s[i..]);
      None
    case Some(i) =>
      assert matchesAt(s[i..]);
      assert forall j :: 0 <= j < i ==> !matchesAt(s[j..]);
      MarkedNumberAt(s[i..], mark)
  }

  /** The pattern matches at position `i` of `s` and at no earlier position. */
  predicate LeftmostMatch(s: string, mark: char, i: int) {
    0 <= i < |s| && MarkedNumberAt(s[i..], mark).Some? && forall j :: 0 <= j < i ==> MarkedNumberAt(s[j..], mark).None?
  }

  /** A number found by the search is the one at the leftmost position where the pattern matches. */
  lemma FindMarkedNumberIsLeftmost(s: string, mark: char)
    ensures var r := FindMarkedNumber(s, mark);
      r.Some? ==> exists i :: LeftmostMatch(s, mark, i) && r == MarkedNumberAt(s[i..], mark)
  {
    var matchesAt := t => MarkedNumberAt(t, mark).Some?;
    var m := FirstMatch(s, matchesAt);
    if m.Some? {
      var i := m.value;
      assert forall j :: 0 <= j < i ==> !matchesAt(s[j..]);
      assert FindMarkedNumber(s, mark) == MarkedNumberAt(s[i..], mark);
    }
  }

  /** The scale an exponent part `e[+-]digits` at the start of `s` applies, 1 without one. */
  function ExponentScale(s: string): (e: real)
    ensures e > 0.0
  {
    if |s| > 0 && (s[0] == 'e' || s[0] == 'E') then
      var negative := |s| > 1 && s[1] == '-';
      var signed := |s| > 1 && (s[1] == '-' || s[1] == '+');
      var rest := if signed then s[2..] else s[1..];
      var k := DigitRun(rest);
      if k == 0 then 1.0
      else if negative then 1.0 / Pow10(DigitsValue(rest[..k])) as real
      else Pow10(DigitsValue(rest[..k])) as real
    else
      1.0
  }

  /** `s` starts with a decimal literal: a digit, or a point followed by a digit. */
  predicate StartsNumber(s: string) {
    (|s| > 0 && IsDigit(s[0])) || (|s| > 1 && s[0] == '.' && IsDigit(s[1]))
  }

  /** `parseFloat` without a sign: the longest decimal literal at the start of `s`. */
  function ParseUnsigned(s: string): (r: Option<real>)
    ensures r.None? <==> !StartsNumber(s)
    ensures r.Some? ==> r.value >= 0.0
  {
    var j := DigitRun(s);
    var dot := j < |s| && s[j] == '.';
    var f := if dot then DigitRun(s[j + 1..]) else 0;
    if j == 0 && f == 0 then
      None
    else
      var mantissa := DigitsValue(s[..j]) as real + (if dot then FractionValue(s[j + 1..][..f]) else 0.0);
      var end := if dot then j + 1 + f else j;
      var scale := ExponentScale(s[end..]);
      ScaledNonNegative(mantissa, scale);
      Some(mantissa * scale)
  }

  lemma ScaledNonNegative(m: real, scale: real)
    requires m >= 0.0 && scale > 0.0
    ensures m * scale >= 0.0
  {
  }

  /**
   * `parseFloat` on text without leading whitespace: the longest signed
   * decimal literal at its start, or nothing (NaN) when there is none.
   */
  function ParseFloat(s: string): (r: Option<real>)
    ensures r.None? <==> !StartsNumber(if |s| > 0 && (s[0] == '-' || s[0] == '+') then s[1..] else s)
    ensures r.Some? && |s| > 0 && s[0] == '-' ==> r.value <= 0.0
    ensures r.Some? && !(|s| > 0 && s[0] == '-') ==> r.value >= 0.0
  {
    if |s| > 0 && s[0] == '-' then
      match ParseUnsigned(s[1..])
      case Some(v) => Some(-v)
      case None => None
    else if |s| > 0 && s[0] == '+' then
      ParseUnsigned(s[1..])
    else
      ParseUnsigned(s)
  }

  /**
   * `parseMeasurement`: blank input is 0; otherwise the first number marked
   * as feet counts twelve inches a foot, the first number marked as inches
   * counts as inches, and with neither mark a leading bare number is taken
   * as inches. Anything else is 0.
   */
  function ParseMeasurement(input: string): (inches: real)
    ensures AllWhitespace(input) ==> inches == 0.0
    ensures !AllWhitespace(input) ==>
      var cleaned := Clean(input);
      var feet := FindMarkedNumber(cleaned, FeetMark);
      var marked := FindMarkedNumber(cleaned, InchMark);
      && (feet.Some? || marked.Some? ==> inches == 12.0 * feet.ValueOr(0.0) + marked.ValueOr(0.0))
      && (feet.None? && marked.None? ==> inches == ParseFloat(cleaned).ValueOr(0.0))
  {
    if |input| == 0 || Trim(input) == [] then
      0.0
    else
      var cleaned := Clean(input);
      var feet := FindMarkedNumber(cleaned, FeetMark);
      var inches := FindMarkedNumber(cleaned, InchMark);
      if feet.None? && inches.None? then
        match ParseFloat(cleaned)
        case Some(v) => v
        case None => 0.0
      else
        var total := 0.0;
        var total := if feet.Some? then total + Measurement.FeetToInches(feet.value) else total;
        var total := if inches.Some? then total + inches.value else total;
        total
  }
}

=== FILE: numerals.dfy ===
/**
 * Decimal numerals: the digit strings that `Number.prototype.toString` and
 * `toFixed` produce for non-negative integers, and the values that
 * `parseFloat` reads back from them.
 */
module Numerals {

  predicate IsDigit(c: char) {
    '0' <= c <= '9'
  }

  predicate AllDigits(s: string) {
    forall i :: 0 <= i < |s| ==> IsDigit(s[i])
  }

  /** A numeral without superfluous leading zeros, as `toString` writes one. */
  predicate IsCanonical(s: string) {
    |s| >= 1 && AllDigits(s) && (s[0] != '0' || |s| == 1)
  }

  function DigitValue(c: char): (d: nat)
    requires IsDigit(c)
    ensures d < 10
  {
    c as int - '0' as int
  }

  function DigitChar(d: nat): (c: char)
    requires d < 10
    ensures IsDigit(c) && DigitValue(c) == d
  {
    ('0' as int + d) as char
  }

  function Pow10(k: nat): (p: nat)
    ensures p >= 1
  {
    if k == 0 then 1 else 10 * Pow10(k - 1)
  }

  /** The value of a digit string, most significant digit first. */
  function DigitsValue(s: string): nat
    requires AllDigits(s)
  {
    if |s| == 0 then 0 else 10 * DigitsValue(s[..|s| - 1]) + DigitValue(s[|s| - 1])
  }

  /** The value of the digits written after a decimal point. */
  function FractionValue(s: string): (v: real)
    requires AllDigits(s)
  {
    DigitsValue(s) as real / Pow10(|s|) as real
  }

  /** Decimal rendering of a natural number. */
  function NatToString(n: nat): (s: string)
    ensures IsCanonical(s)
    ensures |s| == 1 <==> n < 10
  {
    if n < 10 then [DigitChar(n)] else NatToString(n / 10) + [DigitChar(n % 10)]
  }

  /** Decimal rendering of an integer: a minus sign in front of negative ones. */
  function IntToString(i: int): (s: string)
    ensures |s| >= 1
    ensures i >= 0 ==> IsCanonical(s)
    ensures i < 0 ==> s[0] == '-' && IsCanonical(s[1..])
  {
    if i < 0 then "-" + NatToString(-i) else NatToString(i)
  }

  /** Exactly two digits, with a leading zero below ten (the fraction part of `toFixed(2)`). */
  function TwoDigits(n: nat): (s: string)
    requires n < 100
    ensures |s| == 2 && AllDigits(s) && DigitsValue(s) == n
  {
    var s := [DigitChar(n / 10), DigitChar(n % 10)];
    assert s[..1] == [DigitChar(n / 10)] && [DigitChar(n / 10)][..0] == [];
    assert DigitsValue(s[..1]) == n / 10;
    s
  }

  lemma DigitsValueAppend(s: string, c: char)
    requires AllDigits(s) && IsDigit(c)
    ensures AllDigits(s + [c])
    ensures DigitsValue(s + [c]) == 10 * DigitsValue(s) + DigitValue(c)
  {
    assert (s + [c])[..|s + [c]| - 1] == s;
  }

  /** Reading a rendered natural number gives the number back. */
  lemma {:induction false} NatToStringRoundTrip(n: nat)
    ensures DigitsValue(NatToString(n)) == n
    decreases n
  {
    if n >= 10 {
      NatToStringRoundTrip(n / 10);
      DigitsValueAppend(NatToString(n / 10), DigitChar(n % 10));
    }
  }

  lemma {:induction false} LeadingDigitPositive(s: string)
    requires IsCanonical(s) && |s| >= 2
    ensures DigitsValue(s) >= Pow10(|s| - 1)
    decreases |s|
  {
    var init := s[..|s| - 1];
    if |s| > 2 {
      assert IsCanonical(init) && init[0] == s[0];
      LeadingDigitPositive(init);
    } else {
      assert init == [s[0]];
      assert DigitsValue(init) == DigitValue(s[0]);
    }
  }

  /** Rendering the value of a canonical numeral gives the numeral back. */
  lemma {:induction false} CanonicalRoundTrip(s: string)
    requires IsCanonical(s)
    ensures NatToString(DigitsValue(s)) == s
    decreases |s|
  {
    if |s| == 1 {
      assert s[..0] == [];
      assert s == [DigitChar(DigitValue(s[0]))];
    } else {
      var init := s[..|s| - 1];
      var last := s[|s| - 1];
      assert init[0] == s[0];
      assert IsCanonical(init);
      LeadingDigitPositive(s);
      var v := DigitsValue(s);
      assert v == 10 * DigitsValue(init) + DigitValue(last);
      assert v / 10 == DigitsValue(init) && v % 10 == DigitValue(last);
      CanonicalRoundTrip(init);
      assert DigitChar(DigitValue(last)) == last;
      assert s == init + [last];
    }
  }

  /** Distinct naturals render as distinct numerals. */
  lemma NatToStringInjective(a: nat, b: nat)
    ensures NatToString(a) == NatToString(b) ==> a == b
  {
    NatToStringRoundTrip(a);
    NatToStringRoundTrip(b);
  }

  /** Distinct integers render as distinct strings, sign included. */
  lemma IntToStringInjective(a: int, b: int)
    ensures IntToString(a) == IntToString(b) ==> a == b
  {
    if IntToString(a) == IntToString(b) {
      if a < 0 && b < 0 {
        assert IntToString(a)[1..] == NatToString(-a);
        assert IntToString(b)[1..] == NatToString(-b);
        NatToStringInjective(-a, -b);
      } else if a >= 0 && b >= 0 {
        NatToStringInjective(a, b);
      }
    }
  }
}

=== FILE: parser_examples.dfy ===
/**
 * `parseMeasurement` on the formats its documentation lists: blank input,
 * `10' 6"` and `10ft 6in`.
 */
module ParserExamples {
  import opened Wrappers
  import opened Numerals
  import opened Text
  import opened Measurement
  import opened MeasurementParser
  import opened ParserProperties

  /** Empty or blank input is zero inches. */
  lemma BlankIsZero()
    ensures ParseMeasurement("") == 0.0
    ensures ParseMeasurement("  ") == 0.0
  {
  }

  /** The inches text `i"` is plain, has no feet mark, and matches at its start. */
  lemma WholeInchesMatch(i: nat)
    ensures var t := NatToString(i) + "\"";
      && |t| > 0 && IsDigit(t[0]) && t[|t| - 1] == InchMark && Plain(t)
      && (forall k :: 0 <= k < |t| ==> t[k] != FeetMark)
      && MarkedNumberAt(t, InchMark) == Some(i as real)
  {
    var e := NatToString(i);
    NatToStringRoundTrip(i);
    assert e + "\"" == e + [InchMark] + [];
    MarkedIntegerAt(e, InchMark, []);
  }

  /** `f' i"` is `f` feet and `i` inches. */
  lemma ParseFeetAndWholeInches(f: nat, i: nat)
    ensures ParseMeasurement(NatToString(f) + "' " + NatToString(i) + "\"") == FeetToInches(f as real) + i as real
  {
    var d := NatToString(f);
    var t := NatToString(i) + "\"";
    NatToStringRoundTrip(f);
    WholeInchesMatch(i);
    ParseFeetThenInches(d, t, i as real);
    FeetInchesShape(d, t);
    Associate(d, "' ", NatToString(i), "\"");
    ReadsAs(d + "' " + t, d + [FeetMark] + ([' '] + t), FeetToInches(f as real) + i as real);
  }

  /** Neither feet word can start at `ft `, and no `f` follows. */
  lemma FeetWordsAbsent(w: string, e: string)
    requires w == "feet" || w == "foot"
    requires AllDigits(e)
    ensures ReplaceAll(['f'] + (['t', ' '] + e + ['i', 'n']), w, "'") == ['f'] + (['t', ' '] + e + ['i', 'n'])
  {
    var rest := ['t', ' '] + e + ['i', 'n'];
    var s := ['f'] + rest;
    assert s[..4][2] == ' ';
    assert s[1..] == rest;
    assert forall k :: 0 <= k < |rest| ==> rest[k] != 'f';
  }

  /** `feet` and `foot` occur nowhere in `dft ein`. */
  lemma FeetWordAbsent(d: string, e: string, w: string)
    requires AllDigits(d) && AllDigits(e)
    requires w == "feet" || w == "foot"
    ensures var s := d + (['f'] + (['t', ' '] + e + ['i', 'n']));
      ReplaceAll(s, w, "'") == s
  {
    FeetWordsAbsent(w, e);
    ReplaceAllAfterPrefix(d, ['f'] + (['t', ' '] + e + ['i', 'n']), w, "'");
  }

  /** `ft` in `dft ein` becomes the feet mark. */
  lemma FtWord(d: string, e: string)
    requires AllDigits(d) && AllDigits(e)
    ensures var s := d + (['f'] + (['t', ' '] + e + ['i', 'n']));
      ReplaceAll(s, "ft", "'") == d + ([FeetMark] + ([' '] + e + ['i', 'n']))
  {
    var tail := ['f'] + (['t', ' '] + e + ['i', 'n']);
    var after := [' '] + e + ['i', 'n'];
    ReplaceAllAfterPrefix(d, tail, "ft", "'");
    assert tail[..2] == "ft" && tail[2..] == after;
    assert forall k :: 0 <= k < |after| ==> after[k] != 'f';
    assert ReplaceAll(after, "ft", "'") == after;
  }

  /** The three feet words leave `dft ein` as `d' ein`. */
  lemma FeetWords(d: string, e: string)
    requires AllDigits(d) && AllDigits(e)
    ensures var s := d + (['f'] + (['t', ' '] + e + ['i', 'n']));
      Normalize(s) == ReplaceAll(ReplaceAll(ReplaceAll(d + ([FeetMark] + ([' '] + e + ['i', 'n'])), "inches", "\""), "inch", "\""), "in", "\"")
  {
    FeetWordAbsent(d, e, "feet");
    FeetWordAbsent(d, e, "foot");
    FtWord(d, e);
  }

  /** The three inch words turn the trailing `in` into the inch mark. */
  lemma InchWords(front: string)
    requires forall k :: 0 <= k < |front| ==> front[k] != 'i'
    ensures ReplaceAll(ReplaceAll(ReplaceAll(front + ['i', 'n'], "inches", "\""), "inch", "\""), "in", "\"") == front + [InchMark]
  {
    var word := ['i', 'n'];
    var s := front + word;
    assert ReplaceAll(s, "inches", "\"") == s by {
      ReplaceAllAfterPrefix(front, word, "inches", "\"");
    }
    assert ReplaceAll(s, "inch", "\"") == s by {
      ReplaceAllAfterPrefix(front, word, "inch", "\"");
    }
    assert ReplaceAll(word, "in", "\"") == [InchMark] by {
      assert word[..2] == "in" && word[2..] == [];
    }
    ReplaceAllAfterPrefix(front, word, "in", "\"");
  }

  /** Text already trimmed and in lower case is only normalized. */
  lemma CleanIsNormalize(s: string)
    requires |s| > 0 && !IsWhitespace(s[0]) && !IsWhitespace(s[|s| - 1])
    requires forall k :: 0 <= k < |s| ==> !IsUpper(s[k])
    ensures !AllWhitespace(s) && Clean(s) == Normalize(s)
  {
    NoUpperUnchanged(s);
  }

  lemma UnitWordsLower(d: string, e: string)
    requires |d| > 0 && AllDigits(d) && AllDigits(e)
    ensures var s := d + (['f'] + (['t', ' '] + e + ['i', 'n']));
      |s| > 0 && !IsWhitespace(s[0]) && !IsWhitespace(s[|s| - 1])
      && forall k :: 0 <= k < |s| ==> !IsUpper(s[k])
  {
  }

  lemma MarksFront(d: string, e: string)
    requires AllDigits(d) && AllDigits(e)
    ensures var front := d + [FeetMark] + [' '] + e;
      && d + ([FeetMark] + ([' '] + e + ['i', 'n'])) == front + ['i', 'n']
      && (forall k :: 0 <= k < |front| ==> front[k] != 'i')
      && front + [InchMark] == d + [FeetMark] + ([' '] + (e + [InchMark]))
  {
  }

  /** `dft ein` is cleaned to `d' e"`. */
  lemma CleanUnitWords(d: string, e: string)
    requires |d| > 0 && AllDigits(d) && AllDigits(e)
    ensures var s := d + (['f'] + (['t', ' '] + e + ['i', 'n']));
      !AllWhitespace(s) && Clean(s) == d + [FeetMark] + ([' '] + (e + [InchMark]))
  {
    var s := d + (['f'] + (['t', ' '] + e + ['i', 'n']));
    UnitWordsLower(d, e);
    CleanIsNormalize(s);
    FeetWords(d, e);
    MarksFront(d, e);
    InchWords(d + [FeetMark] + [' '] + e);
  }

  lemma UnitWordsShape(d: string, e: string)
    ensures d + "ft " + e + "in" == d + (['f'] + (['t', ' '] + e + ['i', 'n']))
    ensures d + "' " + e + "\"" == d + [FeetMark] + ([' '] + (e + [InchMark]))
  {
  }

  /** `fft iin` is read like `f' i"`: twelve inches a foot plus the inches. */
  lemma ParseUnitWords(f: nat, i: nat)
    ensures ParseMeasurement(NatToString(f) + "ft " + NatToString(i) + "in") == FeetToInches(f as real) + i as real
  {
    var d := NatToString(f);
    var e := NatToString(i);
    var words := d + (['f'] + (['t', ' '] + e + ['i', 'n']));
    var marks := d + [FeetMark] + ([' '] + (e + [InchMark]));
    UnitWordsShape(d, e);
    CleanUnitWords(d, e);
    ParseFeetAndWholeInches(f, i);
    WholeInchesMatch(i);
    PlainFeetPrefix(d, e + [InchMark]);
    CleanPlain(marks);
    SameCleanText(words, marks);
    ReadsAs(d + "' " + e + "\"", marks, FeetToInches(f as real) + i as real);
    ReadsAs(d + "ft " + e + "in", words, FeetToInches(f as real) + i as real);
  }

  lemma TenSixText()
    ensures NatToString(10) + "' " + NatToString(6) + "\"" == "10' 6\""
    ensures NatToString(10) + "ft " + NatToString(6) + "in" == "10ft 6in"
  {
    assert NatToString(10) == "10" && NatToString(6) == "6";
  }

  /** The two spellings in the documentation of `parseMeasurement`. */
  lemma TenFeetSixInches()
    ensures ParseMeasurement("10' 6\"") == 126.0
    ensures ParseMeasurement("10ft 6in") == 126.0
  {
    ParseFeetAndWholeInches(10, 6);
    ParseUnitWords(10, 6);
    TenSixText();
    ReadsAs("10' 6\"", NatToString(10) + "' " + NatToString(6) + "\"", 126.0);
    ReadsAs("10ft 6in", NatToString(10) + "ft " + NatToString(6) + "in", 126.0);
  }
}

=== FILE: parser_properties.dfy ===
/**
 * What `parseMeasurement` makes of the text the display functions write,
 * and of the formats its own documentation lists.
 */
module ParserProperties {
  import opened Wrappers
  import opened Numerals
  import opened Text
  import opened Measurement
  import opened MeasurementParser

  /** The only characters `formatMeasurement` writes. */
  predicate PlainChar(c: char) {
    IsDigit(c) || c == '.' || c == ' ' || c == '\'' || c == '"'
  }

  predicate Plain(s: string) {
    forall i :: 0 <= i < |s| ==> PlainChar(s[i])
  }

  lemma PlainAppend(a: string, b: string)
    requires Plain(a) && Plain(b)
    ensures Plain(a + b)
  {
    assert forall i :: |a| <= i < |a + b| ==> (a + b)[i] == b[i - |a|];
  }

  lemma DigitsArePlain(d: string)
    requires AllDigits(d)
    ensures Plain(d)
  {
    assert forall i :: 0 <= i < |d| ==> IsDigit(d[i]);
  }

  lemma NoUpperUnchanged(s: string)
    requires forall i :: 0 <= i < |s| ==> !IsUpper(s[i])
    ensures ToLower(s) == s
  {
    var lower := ToLower(s);
    assert forall i :: 0 <= i < |s| ==> lower[i] == s[i];
  }

  /** Text with neither an `f` nor an `i` has no unit words to rewrite. */
  lemma NormalizeUnchanged(s: string)
    requires forall i :: 0 <= i < |s| ==> s[i] != 'f' && s[i] != 'i'
    ensures Normalize(s) == s
  {
    assert "feet"[0] == 'f' && "foot"[0] == 'f' && "ft"[0] == 'f';
    assert "inches"[0] == 'i' && "inch"[0] == 'i' && "in"[0] == 'i';
  }

  /** Plain text that starts with a digit and does not end in a space is left as it is by the cleaning steps. */
  lemma CleanPlain(s: string)
    requires Plain(s) && |s| > 0 && IsDigit(s[0]) && s[|s| - 1] != ' '
    ensures !AllWhitespace(s)
    ensures Clean(s) == s
  {
    assert !IsWhitespace(s[0]);
    assert !IsWhitespace(s[|s| - 1]);
    assert Trim(s) == s;
    NoUpperUnchanged(s);
    NormalizeUnchanged(s);
  }

  lemma {:induction false} DigitRunOf(d: string, rest: string)
    requires AllDigits(d)
    requires |rest| == 0 || !IsDigit(rest[0])
    ensures DigitRun(d + rest) == |d|
    decreases |d|
  {
    if |d| > 0 {
      assert (d + rest)[1..] == d[1..] + rest;
      DigitRunOf(d[1..], rest);
    }
  }

  /** A number ending at `k` with value `v` and followed directly by the mark matches with that value. */
  lemma MarkedAtEnd(s: string, mark: char, k: nat, v: real)
    requires NumberEnd(s) == k && 0 < k < |s| && s[k] == mark
    requires NumberValue(s) == v
    requires mark == FeetMark || mark == InchMark
    ensures MarkedNumberAt(s, mark) == Some(v)
  {
    assert s[k..][0] == mark;
    assert !IsWhitespace(mark);
    assert WhitespaceRun(s[k..]) == 0;
  }

  /** An integer followed by neither a digit nor a point ends the number. */
  lemma IntegerNumber(d: string, rest: string)
    requires |d| > 0 && AllDigits(d)
    requires |rest| > 0 && !IsDigit(rest[0]) && rest[0] != '.'
    ensures NumberEnd(d + rest) == |d|
    ensures NumberValue(d + rest) == DigitsValue(d) as real
  {
    var s := d + rest;
    DigitRunOf(d, rest);
    assert s[..|d|] == d;
    assert s[|d|] == rest[0];
  }

  /** The end and value of a number with a point, from its two digit runs. */
  lemma DecimalParts(s: string, j: nat, f: nat)
    requires DigitRun(s) == j && 0 < j < |s| && s[j] == '.'
    requires DigitRun(s[j + 1..]) == f
    ensures NumberEnd(s) == j + 1 + f
    ensures NumberValue(s) == DigitsValue(s[..j]) as real + FractionValue(s[j + 1..][..f])
  {
  }

  /** A decimal number followed by a non-digit ends after its fraction digits. */
  lemma DecimalNumber(s: string, whole: string, frac: string, rest: string)
    requires |whole| > 0 && AllDigits(whole) && AllDigits(frac)
    requires |rest| > 0 && !IsDigit(rest[0])
    requires s == whole + (['.'] + (frac + rest))
    ensures NumberEnd(s) == |whole| + 1 + |frac|
    ensures NumberValue(s) == DigitsValue(whole) as real + FractionValue(frac)
  {
    var j := |whole|;
    var after := frac + rest;
    DigitRunOf(whole, ['.'] + after);
    assert s[..j] == whole;
    assert s[j + 1..] == after;
    DigitRunOf(frac, rest);
    assert after[..|frac|] == frac;
    DecimalParts(s, j, |frac|);
  }

  /** An integer followed directly by the mark is matched, with its value. */
  lemma MarkedIntegerAt(d: string, mark: char, rest: string)
    requires |d| > 0 && AllDigits(d)
    requires mark == FeetMark || mark == InchMark
    ensures MarkedNumberAt(d + [mark] + rest, mark) == Some(DigitsValue(d) as real)
  {
    var s := d + [mark] + rest;
    assert s == d + ([mark] + rest);
    IntegerNumber(d, [mark] + rest);
    assert s[|d|] == mark;
    MarkedAtEnd(s, mark, |d|, DigitsValue(d) as real);
  }

  lemma IndexAfterDecimal(whole: string, frac: string, tail: string)
    requires |tail| > 0
    ensures (whole + (['.'] + (frac + tail)))[|whole| + 1 + |frac|] == tail[0]
  {
    var s := whole + (['.'] + (frac + tail));
    assert s[|whole|..] == ['.'] + (frac + tail);
    assert s[|whole| + 1..] == frac + tail;
    assert s[|whole| + 1 + |frac|..] == tail;
  }

  /** A decimal number followed directly by the mark is matched, with its value. */
  lemma MarkedDecimalAt(s: string, whole: string, frac: string, mark: char, rest: string)
    requires |whole| > 0 && AllDigits(whole) && AllDigits(frac)
    requires mark == FeetMark || mark == InchMark
    requires s == whole + (['.'] + (frac + ([mark] + rest)))
    ensures MarkedNumberAt(s, mark) == Some(DigitsValue(whole) as real + FractionValue(frac))
  {
    var tail := [mark] + rest;
    var k := |whole| + 1 + |frac|;
    var v := DigitsValue(whole) as real + FractionValue(frac);
    assert NumberEnd(s) == k && NumberValue(s) == v by {
      DecimalNumber(s, whole, frac, tail);
    }
    assert s[k] == mark by {
      IndexAfterDecimal(whole, frac, tail);
    }
    MarkedAtEnd(s, mark, k, v);
  }

  /**
   * Inside an integer followed by a character that is neither a digit, a
   * point, whitespace nor the mark, the pattern matches nowhere.
   */
  lemma UnmarkedIntegerAt(d: string, c: char, rest: string, mark: char, j: nat)
    requires AllDigits(d) && j <= |d|
    requires !IsDigit(c) && c != '.' && !IsWhitespace(c) && c != mark
    ensures MarkedNumberAt((d + [c] + rest)[j..], mark).None?
  {
    var t := (d + [c] + rest)[j..];
    assert t == d[j..] + ([c] + rest);
    DigitRunOf(d[j..], [c] + rest);
    if j < |d| {
      assert NumberEnd(t) == |d| - j;
      assert t[|d| - j..][0] == c;
    }
  }

  /** Text without the mark has no match. */
  lemma NoMarkNoMatch(s: string, mark: char, j: nat)
    requires j <= |s|
    requires forall i :: 0 <= i < |s| ==> s[i] != mark
    ensures MarkedNumberAt(s[j..], mark).None?
  {
  }

  /** A match at `i` with none before it is the one the search reports. */
  lemma FindAt(s: string, mark: char, i: nat, v: real)
    requires i < |s| && MarkedNumberAt(s[i..], mark) == Some(v)
    requires forall j :: 0 <= j < i ==> MarkedNumberAt(s[j..], mark).None?
    ensures FindMarkedNumber(s, mark) == Some(v)
  {
    var matchesAt := t => MarkedNumberAt(t, mark).Some?;
    assert matchesAt(s[i..]);
  }

  lemma FindNone(s: string, mark: char)
    requires forall j :: 0 <= j < |s| ==> MarkedNumberAt(s[j..], mark).None?
    ensures FindMarkedNumber(s, mark) == None
  {
    var matchesAt := t => MarkedNumberAt(t, mark).Some?;
    var r := FirstMatch(s, matchesAt);
    if r.Some? {
      assert matchesAt(s[r.value..]);
    }
  }

  /** `toFixed(2)` writes digits, a point and two digits worth the value rounded to hundredths. */
  lemma ToFixed2Value(x: real)
    requires x >= 0.0
    ensures var n := Round(x * 100.0);
      n >= 0 && ToFixed2(x) == NatToString(n / 100) + (['.'] + TwoDigits(n % 100))
    ensures var n := Round(x * 100.0);
      n >= 0 && DigitsValue(NatToString(n / 100)) as real + FractionValue(TwoDigits(n % 100)) == RoundToDecimals(x, 2)
  {
    var n := Round(x * 100.0);
    var q := n / 100;
    var r := n % 100;
    NatToStringRoundTrip(q);
    assert Pow10(2) == 100;
    assert Pow10Real(2) == 100.0;
    UnfoldRoundToScale(x, 100.0);
    assert FractionValue(TwoDigits(r)) == r as real / 100.0;
    assert n == 100 * q + r;
    assert n as real / 100.0 == q as real + r as real / 100.0;
  }

  /** Plain text is cleaned to itself, so the searches run on the text as written. */
  lemma ParsePlain(s: string)
    requires Plain(s) && |s| > 0 && IsDigit(s[0]) && s[|s| - 1] != ' '
    ensures var feet := FindMarkedNumber(s, FeetMark);
      var marked := FindMarkedNumber(s, InchMark);
      && (feet.Some? || marked.Some? ==> ParseMeasurement(s) == 12.0 * feet.ValueOr(0.0) + marked.ValueOr(0.0))
      && (feet.None? && marked.None? ==> ParseMeasurement(s) == ParseFloat(s).ValueOr(0.0))
  {
    CleanPlain(s);
  }

  /** A text with no occurrence of the mark has no match for it. */
  lemma AbsentMark(s: string, mark: char)
    requires forall i :: 0 <= i < |s| ==> s[i] != mark
    ensures FindMarkedNumber(s, mark) == None
  {
    forall j | 0 <= j < |s|
      ensures MarkedNumberAt(s[j..], mark).None?
    {
      NoMarkNoMatch(s, mark, j);
    }
    FindNone(s, mark);
  }

  /** `parseFloat` reads a canonical numeral as its value. */
  lemma ParseFloatNumeral(s: string)
    requires IsCanonical(s)
    ensures ParseFloat(s) == Some(DigitsValue(s) as real)
  {
    assert DigitRun(s) == |s| by {
      DigitRunOf(s, []);
      assert s + [] == s;
    }
    assert s[..|s|] == s;
    assert ExponentScale(s[|s|..]) == 1.0 by {
      assert s[|s|..] == [];
    }
    assert ParseUnsigned(s) == Some(DigitsValue(s) as real);
  }

  /** A bare whole number is read as that many inches. */
  lemma ParseBareNumber(n: nat)
    ensures ParseMeasurement(NatToString(n)) == n as real
  {
    var s := NatToString(n);
    NatToStringRoundTrip(n);
    assert Plain(s);
    AbsentMark(s, FeetMark);
    AbsentMark(s, InchMark);
    ParsePlain(s);
    ParseFloatNumeral(s);
  }

  /** The inches text `x.xx"` is plain, has no feet mark, and matches at its start. */
  lemma InchesTextMatch(x: real)
    requires x >= 0.0
    ensures var t := ToFixed2(x) + "\"";
      && |t| > 0 && IsDigit(t[0]) && t[|t| - 1] == InchMark && Plain(t)
      && (forall i :: 0 <= i < |t| ==> t[i] != FeetMark)
      && MarkedNumberAt(t, InchMark) == Some(RoundToDecimals(x, 2))
  {
    ToFixed2Value(x);
    var n := Round(x * 100.0);
    var whole := NatToString(n / 100);
    var frac := TwoDigits(n % 100);
    var t := ToFixed2(x) + "\"";
    assert t == whole + (['.'] + (frac + ([InchMark] + [])));
    DecimalText(t, whole, frac, InchMark);
  }

  /** Digits, a point, digits and a mark: plain, and matched with the decimal's value. */
  lemma DecimalText(t: string, whole: string, frac: string, mark: char)
    requires |whole| > 0 && AllDigits(whole) && AllDigits(frac)
    requires mark == FeetMark || mark == InchMark
    requires t == whole + (['.'] + (frac + ([mark] + [])))
    ensures |t| > 0 && IsDigit(t[0]) && t[|t| - 1] == mark && Plain(t)
    ensures forall i :: 0 <= i < |t| - 1 ==> t[i] != FeetMark && t[i] != InchMark
    ensures MarkedNumberAt(t, mark) == Some(DigitsValue(whole) as real + FractionValue(frac))
  {
    MarkedDecimalAt(t, whole, frac, mark, []);
    DecimalTextPlain(t, whole, frac, mark);
  }

  lemma DecimalTextPlain(t: string, whole: string, frac: string, mark: char)
    requires |whole| > 0 && AllDigits(whole) && AllDigits(frac)
    requires mark == FeetMark || mark == InchMark
    requires t == whole + (['.'] + (frac + ([mark] + [])))
    ensures |t| > 0 && IsDigit(t[0]) && t[|t| - 1] == mark && Plain(t)
    ensures forall i :: 0 <= i < |t| - 1 ==> t[i] != FeetMark && t[i] != InchMark
  {
    DigitsArePlain(whole);
    DigitsArePlain(frac);
    assert Plain([mark] + []) && Plain(['.']);
    PlainAppend(frac, [mark] + []);
    PlainAppend(['.'], frac + ([mark] + []));
    PlainAppend(whole, ['.'] + (frac + ([mark] + [])));
    assert t[0] == whole[0];
    forall i | 0 <= i < |t| - 1
      ensures t[i] != FeetMark && t[i] != InchMark
    {
      if i < |whole| {
        assert t[i] == whole[i];
      } else if i > |whole| {
        assert t[i] == frac[i - |whole| - 1];
      }
    }
  }

  /** The inches-only display `x.xx"` reads back as the inches rounded to hundredths. */
  lemma ParseInchesText(x: real)
    requires x >= 0.0
    ensures ParseMeasurement(ToFixed2(x) + "\"") == RoundToDecimals(x, 2)
  {
    var s := ToFixed2(x) + "\"";
    InchesTextMatch(x);
    FindAt(s, InchMark, 0, RoundToDecimals(x, 2));
    AbsentMark(s, FeetMark);
    ParsePlain(s);
  }

  /** In `d'` the feet pattern matches the digits. */
  lemma FeetDigitsMatch(d: string)
    requires |d| > 0 && AllDigits(d)
    ensures FindMarkedNumber(d + "'", FeetMark) == Some(DigitsValue(d) as real)
  {
    var s := d + "'";
    assert s == d + [FeetMark] + [];
    MarkedIntegerAt(d, FeetMark, []);
    FindAt(s, FeetMark, 0, DigitsValue(d) as real);
  }

  /** In `d'` the inch pattern matches nothing. */
  lemma FeetDigitsNoInches(d: string)
    requires AllDigits(d)
    ensures FindMarkedNumber(d + "'", InchMark) == None
  {
    var s := d + "'";
    forall i | 0 <= i < |s|
      ensures s[i] != InchMark
    {
      if i < |d| { assert s[i] == d[i]; }
    }
    AbsentMark(s, InchMark);
  }

  /** A run of digits followed by the feet mark reads as that many feet. */
  lemma ParseFeetDigits(d: string)
    requires |d| > 0 && AllDigits(d)
    ensures ParseMeasurement(d + "'") == 12.0 * (DigitsValue(d) as real)
  {
    var s := d + "'";
    FeetDigitsMatch(d);
    FeetDigitsNoInches(d);
    DigitsArePlain(d);
    PlainAppend(d, "'");
    assert s[0] == d[0] && s[|s| - 1] == FeetMark;
    ParsePlain(s);
  }

  /** The whole-feet display `f'` reads back as `f` feet. */
  lemma ParseFeetText(f: nat)
    requires f > 0
    ensures ParseMeasurement(NatToString(f) + "'") == FeetToInches(f as real)
  {
    NatToStringRoundTrip(f);
    ParseFeetDigits(NatToString(f));
  }

  /** After `d' ` the first inch match is the one that starts the rest of the text. */
  lemma InchesAfterFeet(d: string, t: string, v: real)
    requires |d| > 0 && AllDigits(d)
    requires |t| > 0 && MarkedNumberAt(t, InchMark) == Some(v)
    ensures FindMarkedNumber(d + [FeetMark] + ([' '] + t), InchMark) == Some(v)
  {
    var rest := [' '] + t;
    var s := d + [FeetMark] + rest;
    var i := |d| + 2;
    assert s[i..] == t;
    forall j | 0 <= j < i
      ensures MarkedNumberAt(s[j..], InchMark).None?
    {
      if j <= |d| {
        UnmarkedIntegerAt(d, FeetMark, rest, InchMark, j);
      } else {
        assert s[j..][0] == ' ';
      }
    }
    FindAt(s, InchMark, i, v);
  }

  lemma PlainFeetPrefix(d: string, t: string)
    requires AllDigits(d) && Plain(t)
    ensures Plain(d + [FeetMark] + ([' '] + t))
  {
  }

  /** Whole feet, the feet mark, a space and an inches text ending in the inch mark. */
  lemma ParseFeetThenInches(d: string, t: string, v: real)
    requires |d| > 0 && AllDigits(d)
    requires |t| > 0 && t[|t| - 1] == InchMark && Plain(t)
    requires MarkedNumberAt(t, InchMark) == Some(v)
    ensures ParseMeasurement(d + [FeetMark] + ([' '] + t)) == FeetToInches(DigitsValue(d) as real) + v
  {
    var s := d + [FeetMark] + ([' '] + t);
    MarkedIntegerAt(d, FeetMark, [' '] + t);
    FindAt(s, FeetMark, 0, DigitsValue(d) as real);
    InchesAfterFeet(d, t, v);
    PlainFeetPrefix(d, t);
    ParsePlain(s);
  }

  /** Equal texts read the same; keeps the solver from comparing the two readings itself. */
  lemma ReadsAs(a: string, b: string, v: real)
    requires a == b && ParseMeasurement(b) == v
    ensures ParseMeasurement(a) == v
  {
  }

  lemma Associate(a: string, b: string, c: string, e: string)
    ensures a + b + c + e == a + b + (c + e)
  {
  }

  lemma FeetInchesShape(d: string, t: string)
    ensures d + "' " + t == d + [FeetMark] + ([' '] + t)
  {
  }

  /** Two non-blank inputs that clean to the same text read the same. */
  lemma SameCleanText(a: string, b: string)
    requires !AllWhitespace(a) && !AllWhitespace(b) && Clean(a) == Clean(b)
    ensures ParseMeasurement(a) == ParseMeasurement(b)
  {
  }

  /** The display `f' x.xx"` reads back as `f` feet plus the inches rounded to hundredths. */
  lemma ParseFeetInchesText(f: nat, x: real)
    requires f > 0 && x >= 0.0
    ensures ParseMeasurement(NatToString(f) + "' " + ToFixed2(x) + "\"") == FeetToInches(f as real) + RoundToDecimals(x, 2)
  {
    var d := NatToString(f);
    var t := ToFixed2(x) + "\"";
    NatToStringRoundTrip(f);
    InchesTextMatch(x);
    ParseFeetThenInches(d, t, RoundToDecimals(x, 2));
    FeetInchesShape(d, t);
    Associate(d, "' ", ToFixed2(x), "\"");
    ReadsAs(d + "' " + t, d + [FeetMark] + ([' '] + t), FeetToInches(f as real) + RoundToDecimals(x, 2));
  }

  /** A whole number of hundredths is unchanged by rounding to two decimals. */
  lemma HundredthsUnchanged(x: real, k: int)
    requires x * 100.0 == k as real
    ensures RoundToDecimals(x, 2) == x
  {
    assert Pow10Real(2) == 100.0 by { assert Pow10(2) == 100; }
    UnfoldRoundToScale(x, 100.0);
    RoundOfInteger(k);
  }

  /**
   * Reading back what `formatMeasurement` writes gives the whole feet plus
   * the remaining inches rounded to hundredths.
   */
  lemma ParseFormatRoundTrip(totalInches: real)
    requires totalInches >= 0.0
    ensures var split := InchesToFeetAndInches(totalInches);
      ParseMeasurement(FormatMeasurement(totalInches))
        == FeetToInches(split.feet as real) + RoundToDecimals(split.inches, 2)
  {
    var split := InchesToFeetAndInches(totalInches);
    var f := split.feet;
    var x := split.inches;
    if f == 0 {
      assert FormatMeasurement(totalInches) == ToFixed2(x) + "\"";
      ParseInchesText(x);
    } else if x == 0.0 {
      assert IntToString(f) == NatToString(f);
      assert FormatMeasurement(totalInches) == NatToString(f) + "'";
      ParseFeetText(f);
      HundredthsUnchanged(x, 0);
    } else {
      assert IntToString(f) == NatToString(f);
      assert FormatMeasurement(totalInches) == NatToString(f) + "' " + ToFixed2(x) + "\"";
      ParseFeetInchesText(f, x);
    }
  }

  /** A length that is a whole number of hundredths of an inch survives display and reading back. */
  lemma ParseFormatExact(totalInches: real)
    requires totalInches >= 0.0 && IsInteger(totalInches * 100.0)
    ensures ParseMeasurement(FormatMeasurement(totalInches)) == totalInches
  {
    var split := InchesToFeetAndInches(totalInches);
    ParseFormatRoundTrip(totalInches);
    var k := (totalInches * 100.0).Floor - 1200 * split.feet;
    assert split.inches * 100.0 == k as real;
    HundredthsUnchanged(split.inches, k);
  }
}

=== FILE: text.dfy ===
/**
 * The string primitives `parseMeasurement` is built on: `trim`,
 * `toLowerCase` and a global replacement of a literal word.
 */
module Text {
  import opened Wrappers

  /**
   * ECMAScript WhiteSpace and LineTerminator characters: those `trim`
   * strips and the regular-expression class `\s` matches.
   */
  predicate IsWhitespace(c: char) {
    var k := c as int;
    || k == 0x09 || k == 0x0A || k == 0x0B || k == 0x0C || k == 0x0D
    || k == 0x20 || k == 0xA0 || k == 0x1680 || 0x2000 <= k <= 0x200A
    || k == 0x2028 || k == 0x2029 || k == 0x202F || k == 0x205F
    || k == 0x3000 || k == 0xFEFF
  }

  predicate AllWhitespace(s: string) {
    forall i :: 0 <= i < |s| ==> IsWhitespace(s[i])
  }

  lemma AllWhitespaceCons(s: string)
    requires |s| > 0
    ensures AllWhitespace(s) <==> IsWhitespace(s[0]) && AllWhitespace(s[1..])
  {
    if IsWhitespace(s[0]) && AllWhitespace(s[1..]) {
      forall i | 0 <= i < |s|
        ensures IsWhitespace(s[i])
      {
        if i > 0 {
          assert s[i] == s[1..][i - 1];
        }
      }
    }
  }

  lemma AllWhitespaceSnoc(s: string)
    requires |s| > 0
    ensures AllWhitespace(s) <==> IsWhitespace(s[|s| - 1]) && AllWhitespace(s[..|s| - 1])
  {
    if IsWhitespace(s[|s| - 1]) && AllWhitespace(s[..|s| - 1]) {
      forall i | 0 <= i < |s|
        ensures IsWhitespace(s[i])
      {
        if i < |s| - 1 {
          assert s[i] == s[..|s| - 1][i];
        }
      }
    }
  }

  /** `s` with its leading whitespace removed. */
  function TrimStart(s: string): (t: string)
    ensures |t| <= |s| && t == s[|s| - |t|..]
    ensures AllWhitespace(s[..|s| - |t|])
    ensures t == [] <==> AllWhitespace(s)
    ensures |t| > 0 ==> !IsWhitespace(t[0])
  {
    if |s| > 0 && IsWhitespace(s[0]) then
      AllWhitespaceCons(s);
      var t := TrimStart(s[1..]);
      assert s[1..][..|s| - 1 - |t|] == s[..|s| - |t|][1..];
      AllWhitespaceCons(s[..|s| - |t|]);
      t
    else
      s
  }

  /** `s` with its trailing whitespace removed. */
  function TrimEnd(s: string): (t: string)
    ensures |t| <= |s| && t == s[..|t|]
    ensures AllWhitespace(s[|t|..])
    ensures t == [] <==> AllWhitespace(s)
    ensures |t| > 0 ==> !IsWhitespace(t[|t| - 1])
  {
    if |s| > 0 && IsWhitespace(s[|s| - 1]) then
      AllWhitespaceSnoc(s);
      var t := TrimEnd(s[..|s| - 1]);
      assert s[..|s| - 1][|t|..] == s[|t|..][..|s| - |t| - 1];
      AllWhitespaceSnoc(s[|t|..]);
      t
    else
      s
  }

  /** `String.prototype.trim`. */
  function Trim(s: string): (t: string)
    ensures exists i, j :: 0 <= i <= j <= |s| && t == s[i..j] && AllWhitespace(s[..i]) && AllWhitespace(s[j..])
    ensures |t| > 0 ==> !IsWhitespace(t[0]) && !IsWhitespace(t[|t| - 1])
    ensures t == [] <==> AllWhitespace(s)
    ensures |s| > 0 && !IsWhitespace(s[0]) && !IsWhitespace(s[|s| - 1]) ==> t == s
  {
    var front := TrimStart(s);
    var t := TrimEnd(front);
    TrimmedBothEnds(s, front, t);
    t
  }

  /** What taking whitespace off the front and then off the back leaves, from the two steps' contracts alone. */
  lemma TrimmedBothEnds(s: string, front: string, t: string)
    requires |front| <= |s| && front == s[|s| - |front|..] && AllWhitespace(s[..|s| - |front|])
    requires front == [] <==> AllWhitespace(s)
    requires |front| > 0 ==> !IsWhitespace(front[0])
    requires |t| <= |front| && t == front[..|t|] && AllWhitespace(front[|t|..])
    requires t == [] <==> AllWhitespace(front)
    requires |t| > 0 ==> !IsWhitespace(t[|t| - 1])
    ensures exists i, j :: 0 <= i <= j <= |s| && t == s[i..j] && AllWhitespace(s[..i]) && AllWhitespace(s[j..])
    ensures |t| > 0 ==> !IsWhitespace(t[0]) && !IsWhitespace(t[|t| - 1])
    ensures t == [] <==> AllWhitespace(s)
    ensures |s| > 0 && !IsWhitespace(s[0]) && !IsWhitespace(s[|s| - 1]) ==> t == s
  {
    TrimmedIsSlice(s, front, t);
    if |t| > 0 {
      assert t[0] == front[0];
    }
    if |front| > 0 {
      assert front[0] == s[|s| - |front|];
    }
    if |front| < |s| {
      assert s[..|s| - |front|][0] == s[0];
    }
    if |t| < |front| {
      assert front[|t|..][|front| - |t| - 1] == front[|front| - 1];
    }
  }

  /** Whitespace taken off the front and then off the back leaves a slice with whitespace on both sides. */
  lemma TrimmedIsSlice(s: string, front: string, t: string)
    requires |front| <= |s| && front == s[|s| - |front|..] && AllWhitespace(s[..|s| - |front|])
    requires |t| <= |front| && t == front[..|t|] && AllWhitespace(front[|t|..])
    ensures exists i, j :: 0 <= i <= j <= |s| && t == s[i..j] && AllWhitespace(s[..i]) && AllWhitespace(s[j..])
  {
    var i := |s| - |front|;
    assert t == s[i..i + |t|];
    assert s[i + |t|..] == front[|t|..];
  }

  predicate IsUpper(c: char) {
    'A' <= c <= 'Z'
  }

  function LowerChar(c: char): char {
    if IsUpper(c) then (c as int + 32) as char else c
  }

  /** `String.prototype.toLowerCase`, restricted to the ASCII letters. */
  function ToLower(s: string): (t: string)
    ensures |t| == |s|
    ensures forall i :: 0 <= i < |t| ==> !IsUpper(t[i])
    ensures forall i :: 0 <= i < |s| && !IsUpper(s[i]) ==> t[i] == s[i]
    ensures forall i :: 0 <= i < |s| && IsUpper(s[i]) ==> t[i] as int == s[i] as int + 32
  {
    if |s| == 0 then [] else [LowerChar(s[0])] + ToLower(s[1..])
  }

  /**
   * `s.replace(/pat/g, rep)` for a literal word `pat`: occurrences are
   * found left to right and do not overlap.
   */
  function ReplaceAll(s: string, pat: string, rep: string): (r: string)
    requires |pat| > 0
    ensures (forall i :: 0 <= i < |s| ==> s[i] != pat[0]) ==> r == s
    ensures forall c :: c in r ==> c in s || c in rep
    ensures |rep| > 0 ==> (r == [] <==> s == [])
    decreases |s|
  {
    if |s| < |pat| then s
    else if s[..|pat|] == pat then rep + ReplaceAll(s[|pat|..], pat, rep)
    else [s[0]] + ReplaceAll(s[1..], pat, rep)
  }

  /** `pat` occurs in `s` starting at position `i`. */
  predicate OccursAt(s: string, pat: string, i: int) {
    0 <= i && i + |pat| <= |s| && s[i..i + |pat|] == pat
  }

  /** Text in which `pat` occurs nowhere comes back unchanged. */
  lemma {:induction false} ReplaceAllNoOccurrence(s: string, pat: string, rep: string)
    requires |pat| > 0
    requires forall i :: !OccursAt(s, pat, i)
    ensures ReplaceAll(s, pat, rep) == s
    decreases |s|
  {
    if |s| >= |pat| {
      assert !OccursAt(s, pat, 0);
      assert s[0..|pat|] == s[..|pat|];
      forall i
        ensures !OccursAt(s[1..], pat, i)
      {
        if 0 <= i && i + |pat| <= |s[1..]| {
          assert s[1..][i..i + |pat|] == s[i + 1..i + 1 + |pat|];
          assert !OccursAt(s, pat, i + 1);
        }
      }
      ReplaceAllNoOccurrence(s[1..], pat, rep);
    }
  }

  /** An occurrence at the start is rewritten and the search resumes after it. */
  lemma ReplaceAllStepWord(s: string, pat: string, rep: string)
    requires |pat| > 0 && OccursAt(s, pat, 0)
    ensures ReplaceAll(s, pat, rep) == rep + ReplaceAll(s[|pat|..], pat, rep)
  {
    assert s[0..|pat|] == s[..|pat|];
  }

  /** Without an occurrence at the start, the first character is copied. */
  lemma ReplaceAllStepChar(s: string, pat: string, rep: string)
    requires |pat| > 0 && |s| > 0 && !OccursAt(s, pat, 0)
    ensures ReplaceAll(s, pat, rep) == [s[0]] + ReplaceAll(s[1..], pat, rep)
  {
    if |s| < |pat| {
      ReplaceAllNoOccurrence(s[1..], pat, rep);
    } else {
      assert s[0..|pat|] == s[..|pat|];
    }
  }

  /** Occurrences in the text after its first character are the later ones in the text. */
  lemma OccursAtShift(s: string, pat: string, i: int)
    requires |s| > 0 && 0 <= i
    ensures OccursAt(s[1..], pat, i) <==> OccursAt(s, pat, i + 1)
  {
    if 0 <= i && i + |pat| <= |s[1..]| {
      assert s[1..][i..i + |pat|] == s[i + 1..i + 1 + |pat|];
    }
  }

  /** Putting the first character of `a` back in front of the rest of `a`. */
  lemma Regroup(a: string, b: string, c: string)
    requires |a| > 0
    ensures [a[0]] + (a[1..] + b + c) == a + b + c
  {
    assert a == [a[0]] + a[1..];
  }

  /**
   * The first occurrence of the word is rewritten to the replacement: the
   * text before it is copied and the search resumes right after it.
   */
  lemma {:induction false} ReplaceAllAtWord(a: string, t: string, pat: string, rep: string)
    requires |pat| > 0
    requires forall i :: 0 <= i < |a| ==> !OccursAt(a + pat + t, pat, i)
    ensures ReplaceAll(a + pat + t, pat, rep) == a + rep + ReplaceAll(t, pat, rep)
    decreases |a|
  {
    var s := a + pat + t;
    if |a| == 0 {
      assert s == pat + t;
      assert s[..|pat|] == pat && s[|pat|..] == t;
      ReplaceAllStepWord(s, pat, rep);
    } else {
      ReplaceAllStepChar(s, pat, rep);
      assert s[1..] == a[1..] + pat + t;
      forall i | 0 <= i < |a[1..]|
        ensures !OccursAt(a[1..] + pat + t, pat, i)
      {
        OccursAtShift(s, pat, i);
      }
      ReplaceAllAtWord(a[1..], t, pat, rep);
      Regroup(a, rep, ReplaceAll(t, pat, rep));
    }
  }

  /**
   * Where the result holds no character of the replacement, it is the
   * input copied as it is.
   */
  lemma {:induction false} ReplaceAllCopiesPrefix(t: string, pat: string, rep: string, m: nat)
    requires |pat| > 0 && |rep| > 0
    requires m <= |ReplaceAll(t, pat, rep)|
    requires forall i :: 0 <= i < m ==> ReplaceAll(t, pat, rep)[i] !in rep
    ensures m <= |t| && ReplaceAll(t, pat, rep)[..m] == t[..m]
    decreases |t|
  {
    var r := ReplaceAll(t, pat, rep);
    if |t| < |pat| {
      assert r == t;
    } else if t[..|pat|] == pat {
      assert r == rep + ReplaceAll(t[|pat|..], pat, rep);
      assert r[0] in rep;
    } else if m > 0 {
      var r' := ReplaceAll(t[1..], pat, rep);
      assert r == [t[0]] + r';
      forall i | 0 <= i < m - 1
        ensures r'[i] !in rep
      {
        assert r'[i] == r[i + 1];
      }
      ReplaceAllCopiesPrefix(t[1..], pat, rep, m - 1);
      assert r[..m] == [t[0]] + r'[..m - 1];
      assert t[..m] == [t[0]] + t[1..][..m - 1];
    }
  }

  /**
   * A global replacement by text that shares no character with the word
   * leaves no occurrence of the word behind.
   */
  lemma {:induction false} ReplaceAllRemovesWord(s: string, pat: string, rep: string)
    requires |pat| > 0 && |rep| > 0
    requires forall c :: c in rep ==> c !in pat
    ensures forall i :: !OccursAt(ReplaceAll(s, pat, rep), pat, i)
    decreases |s|
  {
    var r := ReplaceAll(s, pat, rep);
    if |s| < |pat| {
    } else if s[..|pat|] == pat {
      var r' := ReplaceAll(s[|pat|..], pat, rep);
      assert r == rep + r';
      ReplaceAllRemovesWord(s[|pat|..], pat, rep);
      forall i
        ensures !OccursAt(r, pat, i)
      {
        if 0 <= i < |rep| && i + |pat| <= |r| {
          assert r[i..i + |pat|][0] == r[i] == rep[i];
          assert rep[i] in rep;
          assert pat[0] in pat;
        } else if |rep| <= i && i + |pat| <= |r| {
          assert r[i..i + |pat|] == r'[i - |rep|..i - |rep| + |pat|];
          assert !OccursAt(r', pat, i - |rep|);
        }
      }
    } else {
      var r' := ReplaceAll(s[1..], pat, rep);
      assert r == [s[0]] + r';
      ReplaceAllRemovesWord(s[1..], pat, rep);
      forall i
        ensures !OccursAt(r, pat, i)
      {
        if i == 0 {
          FirstOccurrenceCopied(s, pat, rep, r, r');
        } else if i > 0 && i + |pat| <= |r| {
          assert r[i..i + |pat|] == r'[i - 1..i - 1 + |pat|];
          assert !OccursAt(r', pat, i - 1);
        }
      }
    }
  }

  /** An occurrence at the start of the result would be an occurrence at the start of the input. */
  lemma FirstOccurrenceCopied(s: string, pat: string, rep: string, r: string, r': string)
    requires |pat| > 0 && |rep| > 0 && |s| >= |pat|
    requires forall c :: c in rep ==> c !in pat
    requires r' == ReplaceAll(s[1..], pat, rep) && r == [s[0]] + r'
    ensures OccursAt(r, pat, 0) ==> s[..|pat|] == pat
  {
    if !OccursAt(r, pat, 0) {
      return;
    }
    var m := |pat| - 1;
    forall i | 0 <= i < m
      ensures r'[i] !in rep
    {
      assert r'[i] == pat[i + 1];
      assert pat[i + 1] in pat;
    }
    ReplaceAllCopiesPrefix(s[1..], pat, rep, m);
    assert pat == r[..|pat|] == [s[0]] + r'[..m];
    assert s[..|pat|] == [s[0]] + s[1..][..m];
  }

  lemma ReplaceAllSkipsFirst(s: string, pat: string, rep: string)
    requires |pat| > 0 && |s| > 0 && s[0] != pat[0]
    ensures ReplaceAll(s, pat, rep) == [s[0]] + ReplaceAll(s[1..], pat, rep)
  {
    if |s| < |pat| {
      assert ReplaceAll(s[1..], pat, rep) == s[1..];
      assert s == [s[0]] + s[1..];
    } else {
      assert s[..|pat|][0] == s[0];
    }
  }

  lemma ConsAppend(a: string, b: string)
    requires |a| > 0
    ensures [a[0]] + (a[1..] + b) == a + b
  {
    assert a == [a[0]] + a[1..];
  }

  /** A prefix in which `pat` cannot start is copied as it is, and the rest is rewritten on its own. */
  lemma {:induction false} ReplaceAllAfterPrefix(a: string, t: string, pat: string, rep: string)
    requires |pat| > 0
    requires forall i :: 0 <= i < |a| ==> a[i] != pat[0]
    ensures ReplaceAll(a + t, pat, rep) == a + ReplaceAll(t, pat, rep)
    decreases |a|
  {
    if |a| == 0 {
      assert a + t == t;
    } else {
      var s := a + t;
      ReplaceAllSkipsFirst(s, pat, rep);
      assert s[1..] == a[1..] + t;
      ReplaceAllAfterPrefix(a[1..], t, pat, rep);
      ConsAppend(a, ReplaceAll(t, pat, rep));
    }
  }

  /**
   * The leftmost position of `s` at which an anchored pattern matches, the
   * way a regular-expression search without the global flag reports it.
   */
  function FirstMatch(s: string, matchesAt: string -> bool): (r: Option<nat>)
    ensures r.Some? ==> r.value < |s| && matchesAt(s[r.value..])
    ensures r.Some? ==> forall j :: 0 <= j < r.value ==> !matchesAt(s[j..])
    ensures r.None? ==> forall j :: 0 <= j < |s| ==> !matchesAt(s[j..])
  {
    if |s| == 0 then None
    else if matchesAt(s) then Some(0)
    else
      match FirstMatch(s[1..], matchesAt)
      case None =>
        assert forall j :: 1 <= j < |s| ==> s[j..] == s[1..][j - 1..];
        None
      case Some(i) =>
        assert forall j :: 1 <= j <= i + 1 ==> s[j..] == s[1..][j - 1..];
        Some(i + 1)
  }
}

=== FILE: wrappers.dfy ===
/** A result field that may be `undefined` in the source, and the `?? fallback` reading of it. */
module Wrappers {

  datatype Option<T> = None | Some(value: T) {

    /** The value held, or `fallback` when there is none. */
    function ValueOr(fallback: T): (v: T)
      ensures Some? ==> v == value
      ensures None? ==> v == fallback
    {
      if Some? then value else fallback
    }
  }
}
